=== FILE: README.md ===
# Whiteboard server core, modelled in Dafny

This project models the core of a collaborative whiteboard server whose user
database lives in persistent memory. The core has three parts:

- **Durable map** (`src/hashmap.rs`). A table of 16 buckets. Each bucket
  lists `(key, slot)` entries, and the slots point into one value store. The
  model is `DurableMap.HashMap`. Its invariant `DurableMap.Valid` says that
  every key sits in the bucket of its hash, that keys are unique, and that
  slots are unique and in range. `DurableMap.Abstract` gives the table's view
  as a Dafny `map`, and every operation is stated against that view.
- **Stroke history** (`src/history.rs`). Each user has a chain of immutable
  strokes linked by `next` and by a weak `prev` back link, plus a cursor
  `current`. The model is `Strokes.History`. The chain is a sequence, each
  line keeps its back link as an index, and the cursor is `-1` for the null
  cursor or an index into the chain.
- **Server glue** (`src/main.rs`):
  - colour packing and the palette (`Palette`);
  - the record created on connection;
  - the `draw`, `undo`, `redo` and `redraw` handlers (`Server`);
  - the replay that merges every user's strokes into one list ordered by
    timestamp (`Replay`). The `BTreeMap` it uses is modelled as a sorted
    association list (`OrderedMap`).

Wall-clock time is a parameter (`now`). Timestamps are integers and the
epoch is 0. The hash function is a field of the table, fixed when the table
is created. Journals and transactions are not modelled. Each operation is a
pure function from the old state to the new one.

## Model

| member | source | states |
|---|---|---|
| DurableMap.New | src/hashmap.rs:26-35 | The new table has 16 buckets, all empty, and an empty value store. It is well formed and holds no key. |
| DurableMap.FindIn | src/hashmap.rs:42-47 | A bucket scan returns the position of the first entry whose key equals the probe. It returns none exactly when no entry in the bucket has that key. |
| DurableMap.Get | src/hashmap.rs:37-49 | On a well-formed table, `get` finds a value exactly when the key is present. `Abstract` reads its map view off `get`. |
| DurableMap.GetIsEntryValue | src/hashmap.rs:40-46 | When an entry `(k, slot)` sits in a bucket, `get(k)` returns `values[slot]`, and the map view holds that value at `k`. |
| DurableMap.Put | src/hashmap.rs:51-67 | After `put(k, v)`, `get(k)` is `v` and every other key reads as before. The map view is updated at `k`. For an existing key the buckets and the size of the value store do not change. For a new key, `v` is appended to the store and `(k, last slot)` to the key's bucket. |
| DurableMap.PutTwice | src/hashmap.rs:57-63 | A second `put` of the same key replaces the value without growing the value store or touching the buckets. |
| DurableMap.UpdateWith | src/hashmap.rs:83-101 | Returns true exactly when the key is present. In that case the value becomes `f` of the old value and nothing else changes. Otherwise the table is unchanged. |
| DurableMap.UpdateInplace | src/hashmap.rs:104-121 | Present key: the value becomes the closure's new value, and the closure's own output is returned (this is how `main.rs` reads back its `done` flag). Absent key: nothing happens. Every other key reads as before. |
| DurableMap.UpdateInplaceMut | src/hashmap.rs:123-140 | Returns true exactly when the key is present. In that case the map view is updated at the key with `f` of the old value. Otherwise the table is unchanged. |
| DurableMap.UpdateWithOrInsert | src/hashmap.rs:142-165 | The key ends up holding `f` of its old value. An absent key is seeded with the default value first. Other keys are unchanged. |
| DurableMap.OrInsert | src/hashmap.rs:167-189 | Inserts only when the key is absent and reports whether it did. A present key leaves the table identical, so nothing is overwritten. |
| DurableMap.OrInsertOnce | src/hashmap.rs:176-181 | A second `or_insert` of the same key, with any value, returns false and leaves the table as the first call left it. |
| DurableMap.Foreach | src/hashmap.rs:191-198 | The visit yields every `(key, value)` pair of the map view, only such pairs, and each key once. The pairs come bucket by bucket from bucket 0, and in entry order within a bucket. |
| DurableMap.Clear | src/hashmap.rs:200-205 | Afterwards every bucket is empty and the value store is discarded. The table is well formed, no key is present, and the map view is empty. |
| DurableMap.IsEmpty | src/hashmap.rs:207-214 | Scans the buckets. The result is true exactly when the table holds no key, that is, when its map view is empty. |
| Strokes.Init | src/history.rs:63-70 | A new history is well formed: no head, and a last timestamp equal to the epoch. |
| Strokes.Head | src/history.rs:146-152 | The head handle is non-null exactly when the chain is non-empty. |
| Strokes.Next | src/history.rs:36-43 | The `next` handle of a stroke is non-null exactly when the stroke is not the last one. |
| Strokes.TraverseSuffix | src/history.rs:36-43 | Following `next` handles from stroke `i` visits exactly the chain from `i` to its end, in order. |
| Strokes.TraverseFromHead | src/history.rs:146-152 | Following `next` from the head visits the whole chain, in order. |
| Strokes.LastTimestamp | src/history.rs:154-160 | The result is the cursor stroke's timestamp, or the epoch when the cursor is null. |
| Strokes.Add | src/history.rs:73-98 | The new stroke becomes the successor of the cursor stroke, or the only stroke when the cursor is null. Strokes after the cursor are dropped and strokes up to it are kept. The new stroke carries the time, points and colour, and its back link points at the old cursor. The cursor moves onto it, and the last timestamp becomes `now`. |
| Strokes.AddDiscardsRedo | src/history.rs:73-98 | After `add` there is nothing left to redo, and the prefix up to the old cursor is unchanged. |
| Strokes.Undo | src/history.rs:100-114 | Moves exactly when the cursor is non-null, stepping back one stroke along the back link. Otherwise it returns false and changes nothing. The chain is never changed. |
| Strokes.Redo | src/history.rs:116-133 | Moves exactly when a next stroke exists: the head when the cursor is null, otherwise the cursor's successor. Otherwise it returns false and changes nothing. |
| Strokes.UndoThenRedo | src/history.rs:100-133 | A redo right after an undo that moved restores the history. |
| Strokes.RedoThenUndo | src/history.rs:100-133 | An undo right after a redo that moved restores the history. |
| Strokes.Clear | src/history.rs:135-144 | Returns whether a head existed. Afterwards there is no head, the last timestamp is the epoch, and neither undo nor redo can move. |
| Strokes.ThreeStrokeScenario | src/history.rs:73-133 | Add A, B and C, undo twice, then redo: the cursor is on B. Drawing D while the cursor is on A makes D A's successor and drops B and C. |
| OrderedMap.Insert | src/main.rs:274 | `BTreeMap::insert` keeps the keys sorted. The key set gains the key, and the map view is updated, so an equal key is replaced. |
| OrderedMap.AsMapOfSorted | src/main.rs:283-285 | Iterating the sorted list yields exactly the map view's entries. |
| Replay.Kept | src/main.rs:270-279 | The walk keeps a prefix of the chain whose timestamps are at most `last`, and it stops at the first stroke past `last`. |
| Replay.KeptIsLongestPrefix | src/main.rs:272-279 | The kept strokes are exactly the chain up to the first stroke whose timestamp exceeds `last`. Later strokes are never kept, whatever their timestamps. |
| Replay.WalkUser | src/main.rs:270-279 | The loop over `next` handles inserts exactly the strokes `Kept` describes, in chain order. |
| Replay.Redraw | src/main.rs:267-285 | The redraw loop over all users computes `ReplayAll`. Its output is strictly ascending in timestamp. |
| Replay.ReplaySorted | src/main.rs:267-285 | The redraw list is strictly ascending in timestamp, so it holds at most one stroke per timestamp. |
| Replay.ReplayIsLatest | src/main.rs:269-285 | Every shown stroke was visited, and every visited timestamp is shown. For equal timestamps, the last-visited stroke is the one shown. |
| Replay.ReplayOnlyKept | src/main.rs:271-275 | Every shown stroke was kept by its owner's walk, and its timestamp is at most that owner's last timestamp. |
| Replay.KeptIsCursorPrefix | src/main.rs:270-279 | If timestamps on a chain strictly increase and are all after the epoch, the walk keeps exactly the strokes up to and including the cursor. |
| Replay.EqualTimestampsShowUndone | src/main.rs:273 | Counterexample: two strokes with equal timestamps, the second undone. The walk keeps both, and the redraw shows the undone one. The corrected replay shows the one in effect. |
| Replay.ClockStepBackHidesStrokes | src/main.rs:273-277 | Counterexample: the clock stepped back between two strokes. The walk shows none of them, although both are in effect. |
| Replay.CollectInEffect | src/main.rs:270-279 | A walk that stops at the cursor's handle instead of comparing timestamps collects exactly the strokes in effect. |
| Replay.ReplayInEffect | src/main.rs:267-285 | The corrected redraw list is strictly ascending in timestamp. |
| Replay.ReplayInEffectShowsOnlyInEffect | src/main.rs:269-279 | The corrected redraw never shows an undone stroke. Each shown stroke lies at or before its user's cursor. |
| Replay.ReplayInEffectShowsAll | src/main.rs:269-285 | Every timestamp in effect for some user appears in the corrected redraw. |
| Replay.ReplayAgreesWhenTimed | src/main.rs:266-290 | If every chain's timestamps strictly increase after the epoch, the source's redraw equals the corrected one. |
| Palette.Color | src/main.rs:31-33 | `color(r, g, b)` stays below 2^24, and shift and mask recover each of the three bytes. |
| Palette.ColorIsWeightedSum | src/main.rs:31-33 | The packing equals `r * 65536 + g * 256 + b`. |
| Palette.ColorOfComponents | src/main.rs:31-33 | Every value below 2^24 is the packing of its own three bytes. |
| Palette.PaletteIndex | src/main.rs:133 | For every id of at least 1, the index `(my_id - 1) % 8` lies in `[0, 8)` and is congruent to `my_id - 1`. |
| Palette.PaletteColor | src/main.rs:133 | A new user's colour is one of the eight palette colours and below 2^24. |
| Palette.PaletteRoundRobin | src/main.rs:133 | User 1 gets slot 0. Each next id gets the next slot, modulo 8, and ids 8 apart share a slot. |
| Palette.ConsecutiveUsersDiffer | src/main.rs:35-44 | Any two users whose ids differ by less than 8 get different colours. |
| Server.DecimalRoundTrip | src/main.rs:131 | Reading back the decimal rendering of an id gives the id. |
| Server.DefaultName | src/main.rs:131 | The default name is `User<#`, then the id's decimal digits without leading zeros, then `>`. |
| Server.NewUser | src/main.rs:128-135 | A connecting user's record has the id's palette colour and an empty, well-formed history whose last timestamp is the epoch. |
| Server.Connect | src/main.rs:126-137 | The record is created only when the id has none, and an existing record is never overwritten. Afterwards the id is present and every history is well formed. |
| Server.WrapI32 | src/main.rs:309-310 | `as i32` keeps the value modulo 2^32 and leaves in-range values unchanged. |
| Server.ToPoints | src/main.rs:306-312 | Each received coordinate pair becomes a point, both coordinates cast to `i32`, in order. |
| Server.StrokeColor | src/main.rs:316-320 | The stroke colour is the user's own colour, or 0 when the user is unknown. |
| Server.Draw | src/main.rs:303-327 | An empty point array changes nothing, and neither does an unknown user. Otherwise the user's history gets the new stroke in the user's colour, stamped `now`. |
| Server.Step | src/main.rs:244-263 | `done` is true exactly when the user exists and the undo or redo moved the cursor. The user's history is replaced by the stepped one, and an unknown user changes nothing. |
| Server.UndoThenRedoRestores | src/main.rs:244-263 | For a known user whose cursor is non-null, the `undo` message succeeds, and a following `redo` message succeeds and gives back the database's map view. |
| Server.Histories | src/main.rs:269 | The histories are visited in `foreach` order, and each one is well formed. |
| Server.RedrawList | src/main.rs:266-290 | The broadcast list is the timestamp walk over every user's strokes. It is strictly ascending in timestamp, and each stroke shown was kept by its owner's walk. |
| Server.RedrawListInEffect | src/main.rs:266-290 | The corrected list is strictly ascending in timestamp, and each stroke shown lies at or before its owner's cursor. |
| Server.RedrawMatchesTimestampWalk | src/main.rs:266-290 | If every user's timestamps strictly increase after the epoch, the broadcast timestamp walk equals the corrected list. |
| Broadcast.VisitHas | src/main.rs:269-279 | Every stroke user `u`'s walk keeps is among the strokes the replay visits. |
| Broadcast.VisitInEffectHas | src/main.rs:269-279 | Every stroke in effect for user `u` is among the strokes the corrected replay visits. |
| Broadcast.RedrawListShowsAllKept | src/main.rs:266-290 | For every connected user, every stroke that user's walk keeps has its timestamp in the broadcast list. |
| Broadcast.RedrawListInEffectShowsAll | src/main.rs:266-290 | For every connected user, every stroke in effect has its timestamp in the corrected broadcast list. |
| Server.Handle | src/main.rs:244-327 | A redraw list is broadcast exactly on `redraw`, or on an `undo` or `redo` that moved. The list is the timestamp walk `RedrawList` over the new database. `redraw` leaves the database unchanged. `draw` gives the database `Draw` computes and broadcasts nothing. `undo` and `redo` give the database `Step` computes. |

## Left out

- Networking and concurrency are not modelled: websockets, the channel map of connected users, broadcasting messages to them, `RwLock`, and the atomic `NEXT_USER_ID` counter. The user id is a parameter.
- Persistence is not modelled: journals, transactions, rollback, and reclaiming `Prc`/`Weak` memory. Each operation is a pure state change. Transaction failures are not modelled either: depending on the call site they are logged, silently ignored (the redraw is then dropped), or `unwrap`ped, which panics.
- Serialisation is not modelled: JSON message parsing, `Line::as_json`, `serde_json::to_string` of the redraw list. The broadcast list is the sequence of strokes itself.
- The `get_id`, `get_name`, `get_color`, `set_name` and `set_color` handlers are not modelled. `set_color` parses a colour with `from_str_radix(..).unwrap()`. They read or write profile fields and do not touch the history or the replay.
- `Replay.ReplayInEffect` keys the merged list by timestamp, as the source's `BTreeMap` does. Two strokes in effect that share a timestamp therefore collapse into the last one visited, and only every in-effect timestamp, not every in-effect stroke, is shown.
- `DurableMap.Get` also models `get_ref` (src/hashmap.rs:69-81). In a value model, a reference to the stored value and a copy of it are the same thing.
- `Line::timestamp`, `Line::points` and `Line::color` (src/history.rs:45-55) are the fields of `Strokes.Line`.
- `DefaultHasher` is the uninterpreted `hash` field of the table. Only `hash(k) % 16` matters for placement.
- `SystemTime::now()` in `add` is the parameter `now`. `SystemTime` is an integer, and `UNIX_EPOCH` is 0.
- `Palette.PaletteIndex` requires `id >= 1`. Ids are issued from 1, and the case where the `usize` counter wraps to 0 after 2^64 connections is not modelled.
- `Server.Handle`: a `draw` message is also relayed verbatim to every connected user. That relay is networking and is not modelled.

## Findings

In the replay, a user's strokes in effect are chosen by comparing timestamps
against the cursor's timestamp. They are not chosen by position on the chain.
The walk assumes that timestamps along a chain are non-decreasing, so that a
single stop point separates the strokes in effect from the undone ones. That
holds only for strictly increasing timestamps, which
`Replay.KeptIsCursorPrefix` proves. Equal timestamps break it, and so does a
wall clock that steps back. The corrected replay bounds each walk by the
cursor, so an undone stroke is never shown. It still keys the merged list by
timestamp, as the source does, so it shows one stroke per timestamp, the last
one visited. `Server.RedrawList` and `Server.Handle` model the
broadcast as written. `Server.RedrawListInEffect` is the corrected broadcast,
and `Server.RedrawMatchesTimestampWalk` ties the two together.

| source | as written | input that shows it | evidently intended | confidence | as-written member | corrected member |
|---|---|---|---|---|---|---|
| src/main.rs:273 | A stroke is kept while `item.timestamp() <= last`, so a stroke after the cursor with the cursor's timestamp is kept too. | Chain `[a, b]` with both timestamps 5 and the cursor on `a` (one undo). The walk keeps `[a, b]`, and the `BTreeMap` insert of `b` replaces `a`, so the redraw shows the undone `b`. | Never show an undone stroke: merge only the strokes up to each cursor, one per timestamp, the last visited. Here that is `[a]`. | medium, not executed | Replay.EqualTimestampsShowUndone | Replay.ReplayInEffect |
| src/main.rs:273-277 | The walk stops at the first stroke whose timestamp exceeds `last`. | Chain `[a, b]` with timestamps 10 then 5 (the clock stepped back) and the cursor on `b`. `last` is 5, so the walk stops at `a` and shows nothing. | Show `[a, b]`, both in effect. | medium, not executed | Replay.ClockStepBackHidesStrokes | Replay.CollectInEffect |

=== FILE: broadcast.dfy ===
/** What a redraw broadcast shows of each connected user: every stroke the
    user's walk keeps (for the timestamp walk) or every stroke in effect
    (for the corrected list) has its timestamp in the broadcast list. */
module Broadcast {
  import opened Strokes
  import DurableMap
  import Replay
  import Server
  import opened Palette

  /** A stroke kept by user `u`'s walk is in the concatenated visit. */
  lemma {:induction false} VisitHas(hs: seq<History>, u: nat, l: Line)
    requires Replay.AllValid(hs) && u < |hs|
    requires l in Replay.KeptOf(hs[u])
    ensures l in Replay.Visit(hs)
    decreases |hs|
  {
    var n := |hs| - 1;
    var pre := hs[..n];
    assert Replay.AllValid(pre) by {
      forall v | 0 <= v < |pre| ensures Valid(pre[v]) {
        assert pre[v] == hs[v];
      }
    }
    assert Replay.Visit(hs) == Replay.Visit(pre) + Replay.KeptOf(hs[n]);
    if u < n {
      assert pre[u] == hs[u];
      VisitHas(pre, u, l);
    }
  }

  /** A stroke in effect for user `u` is in the concatenated in-effect
      visit. */
  lemma {:induction false} VisitInEffectHas(hs: seq<History>, u: nat, l: Line)
    requires Replay.AllValid(hs) && u < |hs|
    requires l in Replay.InEffect(hs[u])
    ensures l in Replay.VisitInEffect(hs)
    decreases |hs|
  {
    var n := |hs| - 1;
    var pre := hs[..n];
    assert Replay.AllValid(pre) by {
      forall v | 0 <= v < |pre| ensures Valid(pre[v]) {
        assert pre[v] == hs[v];
      }
    }
    assert Replay.VisitInEffect(hs) == Replay.VisitInEffect(pre) + Replay.InEffect(hs[n]);
    if u < n {
      assert pre[u] == hs[u];
      VisitInEffectHas(pre, u, l);
    }
  }

  /** The position in `Histories(db)` of user `id`'s history. */
  lemma HistoryIndex(db: Server.Db, id: Usize) returns (u: nat)
    requires Server.ValidDb(db) && id in DurableMap.Abstract(db)
    ensures u < |Server.Histories(db)|
    ensures Server.Histories(db)[u] == DurableMap.Abstract(db)[id].history
  {
    var a := DurableMap.Abstract(db);
    var ps := DurableMap.Foreach(db);
    assert (id, a[id]) in ps;
    var k :| 0 <= k < |ps| && ps[k] == (id, a[id]);
    u := k;
  }

  /** Every stroke user `u`'s walk keeps has its timestamp in the replay. */
  lemma ReplayShowsKept(hs: seq<History>, u: nat, l: Line)
    requires Replay.AllValid(hs) && u < |hs|
    requires l in Replay.KeptOf(hs[u])
    ensures exists i :: 0 <= i < |Replay.ReplayAll(hs)| && Replay.ReplayAll(hs)[i].ts == l.ts
  {
    VisitHas(hs, u, l);
    var vis := Replay.Visit(hs);
    var j :| 0 <= j < |vis| && vis[j] == l;
    Replay.ReplayIsLatest(hs);
  }

  /** Every stroke in effect for user `u` has its timestamp in the corrected
      replay. */
  lemma ReplayInEffectShowsUser(hs: seq<History>, u: nat, l: Line)
    requires Replay.AllValid(hs) && u < |hs|
    requires l in Replay.InEffect(hs[u])
    ensures exists i :: 0 <= i < |Replay.ReplayInEffect(hs)| && Replay.ReplayInEffect(hs)[i].ts == l.ts
  {
    VisitInEffectHas(hs, u, l);
    var vis := Replay.VisitInEffect(hs);
    var j :| 0 <= j < |vis| && vis[j] == l;
    Replay.ReplayInEffectShowsAll(hs);
  }

  /** Every stroke user `id`'s walk keeps has its timestamp in the
      broadcast timestamp walk. */
  lemma RedrawListShowsAllKept(db: Server.Db, id: Usize, l: Line)
    requires Server.ValidDb(db) && id in DurableMap.Abstract(db)
    requires Valid(DurableMap.Abstract(db)[id].history)
    requires l in Replay.KeptOf(DurableMap.Abstract(db)[id].history)
    ensures exists i :: 0 <= i < |Server.RedrawList(db)| && Server.RedrawList(db)[i].ts == l.ts
  {
    var hs := Server.Histories(db);
    var u := HistoryIndex(db, id);
    ReplayShowsKept(hs, u, l);
    assert Server.RedrawList(db) == Replay.ReplayAll(hs);
  }

  /** Every stroke in effect for user `id` has its timestamp in the
      corrected broadcast list. */
  lemma RedrawListInEffectShowsAll(db: Server.Db, id: Usize, l: Line)
    requires Server.ValidDb(db) && id in DurableMap.Abstract(db)
    requires Valid(DurableMap.Abstract(db)[id].history)
    requires l in Replay.InEffect(DurableMap.Abstract(db)[id].history)
    ensures exists i :: 0 <= i < |Server.RedrawListInEffect(db)| && Server.RedrawListInEffect(db)[i].ts == l.ts
  {
    var hs := Server.Histories(db);
    var u := HistoryIndex(db, id);
    ReplayInEffectShowsUser(hs, u, l);
    assert Server.RedrawListInEffect(db) == Replay.ReplayInEffect(hs);
  }
}

=== FILE: durable_map.dfy ===
/** The fixed-bucket chained hash map of `src/hashmap.rs`.

    The table holds `BucketsMax` buckets of `(key, slot)` entries and an
    append-only value store; an entry's slot is the index of its value in the
    store. A key lives in bucket `hash(key) % BucketsMax` and is found by a
    linear scan of that bucket. Every mutator is one atomic step: the
    transaction that surrounds it in the source is not modelled.

    The abstraction `Abstract` maps the table to a plain `map<K, V>`; every
    operation states its effect on that map as well as on `Get`. */
module DurableMap {
  import opened Wrappers

  /** Number of buckets, fixed for the table's lifetime (no resizing). */
  const BucketsMax: nat := 16

  /** One bucket entry: a key and the index of its value in the store. */
  datatype Entry<K> = Entry(key: K, slot: nat)

  /** The table. `hash` stands for the hasher: any deterministic function,
      fixed for the table's lifetime, recomputed on every access. */
  datatype HashMap<!K, V> = HashMap(hash: K -> nat, buckets: seq<seq<Entry<K>>>, values: seq<V>)

  /** The bucket a key belongs to. */
  function BucketOf<K, V>(m: HashMap<K, V>, k: K): nat
  {
    m.hash(k) % BucketsMax
  }

  /** Every entry sits in its key's bucket and refers to an existing value. */
  ghost predicate Placed<K, V>(m: HashMap<K, V>)
  {
    forall b, i | 0 <= b < |m.buckets| && 0 <= i < |m.buckets[b]| ::
      BucketOf(m, m.buckets[b][i].key) == b && m.buckets[b][i].slot < |m.values|
  }

  /** No key occurs twice within a bucket. */
  ghost predicate KeysUnique<K, V>(m: HashMap<K, V>)
  {
    forall b, i, j | 0 <= b < |m.buckets| && 0 <= i < j < |m.buckets[b]| ::
      m.buckets[b][i].key != m.buckets[b][j].key
  }

  /** No two entries share a value slot. */
  ghost predicate SlotsUnique<K, V>(m: HashMap<K, V>)
  {
    forall b, i, c, j |
      && 0 <= b < |m.buckets| && 0 <= i < |m.buckets[b]|
      && 0 <= c < |m.buckets| && 0 <= j < |m.buckets[c]|
      && (b != c || i != j)
      :: m.buckets[b][i].slot != m.buckets[c][j].slot
  }

  /** The representation invariant every operation preserves. */
  ghost predicate Valid<K, V>(m: HashMap<K, V>)
  {
    && |m.buckets| == BucketsMax
    && Placed(m)
    && KeysUnique(m)
    && SlotsUnique(m)
  }

  /** The keys stored anywhere in the table. */
  ghost function Keys<K, V>(m: HashMap<K, V>): set<K>
  {
    set b, i | 0 <= b < |m.buckets| && 0 <= i < |m.buckets[b]| :: m.buckets[b][i].key
  }

  /** Linear scan of one bucket: the position of the first entry for `k`. */
  function FindIn<K(==, !new)>(bucket: seq<Entry<K>>, k: K): (r: Option<nat>)
    ensures r.Some? ==> r.value < |bucket| && bucket[r.value].key == k
    ensures r.Some? ==> forall j | 0 <= j < r.value :: bucket[j].key != k
    ensures r.None? <==> forall j | 0 <= j < |bucket| :: bucket[j].key != k
  {
    if |bucket| == 0 then None
    else if bucket[0].key == k then Some(0)
    else
      match FindIn(bucket[1..], k)
      case None => None
      case Some(i) => Some(i + 1)
  }

  /** The value slot of `k`, found by scanning its bucket. */
  function Slot<K(==, !new), V>(m: HashMap<K, V>, k: K): (r: Option<nat>)
    requires Valid(m)
    ensures r.Some? <==> k in Keys(m)
    ensures r.Some? ==> r.value < |m.values|
  {
    var bucket := m.buckets[BucketOf(m, k)];
    match FindIn(bucket, k)
    case None => None
    case Some(i) => Some(bucket[i].slot)
  }

  /** `get`: a copy of the value stored under `k`, if any. */
  function Get<K(==, !new), V>(m: HashMap<K, V>, k: K): (r: Option<V>)
    requires Valid(m)
    ensures r.Some? <==> k in Keys(m)
  {
    match Slot(m, k)
    case None => None
    case Some(s) => Some(m.values[s])
  }

  /** The map the table represents. */
  ghost function Abstract<K(!new), V>(m: HashMap<K, V>): (a: map<K, V>)
    requires Valid(m)
    ensures a.Keys == Keys(m)
    ensures forall k :: Get(m, k) == (if k in a then Some(a[k]) else None)
  {
    map k | k in Keys(m) :: Get(m, k).value
  }

  /** The value `get` returns is the one stored at the slot of the key's
      entry in the key's bucket. */
  lemma GetIsEntryValue<K(!new), V>(m: HashMap<K, V>, k: K, b: nat, i: nat)
    requires Valid(m)
    requires b < |m.buckets| && i < |m.buckets[b]| && m.buckets[b][i].key == k
    ensures m.buckets[b][i].slot < |m.values|
    ensures Get(m, k) == Some(m.values[m.buckets[b][i].slot])
    ensures k in Abstract(m) && Abstract(m)[k] == m.values[m.buckets[b][i].slot]
  {
    var j := FindIn(m.buckets[b], k).value;
    assert j == i;
  }

  /** Two valid tables that agree on `Get` everywhere but at `k`, where the
      second holds `v`, represent maps that differ by one update. */
  lemma AbstractUpdate<K(!new), V>(m: HashMap<K, V>, r: HashMap<K, V>, k: K, v: V)
    requires Valid(m) && Valid(r)
    requires Get(r, k) == Some(v)
    requires forall k' | k' != k :: Get(r, k') == Get(m, k')
    ensures Abstract(r) == Abstract(m)[k := v]
  {
    var a, b := Abstract(m), Abstract(r);
    forall k' ensures k' in b <==> k' in a[k := v] {
      assert Get(r, k') == (if k' in b then Some(b[k']) else None);
      assert Get(m, k') == (if k' in a then Some(a[k']) else None);
    }
    forall k' | k' in b ensures b[k'] == a[k := v][k'] {
      assert Get(r, k') == Some(b[k']);
      if k' != k {
        assert Get(m, k') == Some(a[k']);
      }
    }
  }

  /** `new`: 16 empty buckets and an empty value store. */
  function New<K, V>(hash: K -> nat): (r: HashMap<K, V>)
    ensures Valid(r) && r.hash == hash
    ensures |r.buckets| == BucketsMax
    ensures forall b | 0 <= b < BucketsMax :: r.buckets[b] == []
    ensures r.values == []
    ensures Keys(r) == {}
  {
    HashMap(hash, seq(BucketsMax, _ => []), [])
  }

  /** Replacing the value in `k`'s slot changes what `Get` returns for `k`
      and for no other key. */
  function StoreAt<K(==, !new), V>(m: HashMap<K, V>, k: K, v: V): (r: HashMap<K, V>)
    requires Valid(m) && k in Keys(m)
    ensures Valid(r) && r.hash == m.hash
    ensures r.buckets == m.buckets && |r.values| == |m.values|
    ensures Keys(r) == Keys(m)
    ensures Get(r, k) == Some(v)
    ensures forall k' | k' != k :: Get(r, k') == Get(m, k')
    ensures Abstract(r) == Abstract(m)[k := v]
  {
    var s := Slot(m, k).value;
    var r := m.(values := m.values[s := v]);
    assert Placed(r) && KeysUnique(r) && SlotsUnique(r);
    StoreAtFrame(m, k, v, r);
    AbstractUpdate(m, r, k, v);
    r
  }

  lemma StoreAtFrame<K(!new), V>(m: HashMap<K, V>, k: K, v: V, r: HashMap<K, V>)
    requires Valid(m) && k in Keys(m)
    requires r == m.(values := m.values[Slot(m, k).value := v])
    ensures Valid(r)
    ensures Get(r, k) == Some(v)
    ensures forall k' | k' != k :: Get(r, k') == Get(m, k')
  {
    assert Placed(r) && KeysUnique(r) && SlotsUnique(r);
    var b := BucketOf(m, k);
    var i := FindIn(m.buckets[b], k).value;
    forall k' | k' != k ensures Get(r, k') == Get(m, k') {
      var c := BucketOf(m, k');
      match FindIn(m.buckets[c], k')
      case None =>
      case Some(j) =>
        assert m.buckets[c][j].key != m.buckets[b][i].key;
        assert m.buckets[c][j].slot != m.buckets[b][i].slot;
    }
  }

  /** Appending a new key: the value store grows by `v`, and `k`'s bucket
      gains one entry pointing at it. */
  function Append<K(==, !new), V>(m: HashMap<K, V>, k: K, v: V): (r: HashMap<K, V>)
    requires Valid(m) && k !in Keys(m)
    ensures Valid(r) && r.hash == m.hash
    ensures r.values == m.values + [v]
    ensures r.buckets == m.buckets[BucketOf(m, k) := m.buckets[BucketOf(m, k)] + [Entry(k, |r.values| - 1)]]
    ensures Keys(r) == Keys(m) + {k}
    ensures Get(r, k) == Some(v)
    ensures forall k' | k' != k :: Get(r, k') == Get(m, k')
    ensures Abstract(r) == Abstract(m)[k := v]
  {
    var r := Appended(m, k, v);
    AppendedValid(m, k, v);
    AppendedKeys(m, k, v);
    AppendedGet(m, k, v);
    AbstractUpdate(m, r, k, v);
    r
  }

  /** The table `Append` builds, before anything is proved about it. */
  function Appended<K, V>(m: HashMap<K, V>, k: K, v: V): HashMap<K, V>
    requires |m.buckets| == BucketsMax
  {
    var b := BucketOf(m, k);
    HashMap(m.hash, m.buckets[b := m.buckets[b] + [Entry(k, |m.values|)]], m.values + [v])
  }

  lemma AppendedValid<K(!new), V>(m: HashMap<K, V>, k: K, v: V)
    requires Valid(m) && k !in Keys(m)
    ensures Valid(Appended(m, k, v))
  {
    var r := Appended(m, k, v);
    var b := BucketOf(m, k);
    var n := |m.buckets[b]|;
    assert r.buckets[b][n] == Entry(k, |m.values|);
    assert Placed(r);
    assert KeysUnique(r) by {
      forall j | 0 <= j < n ensures m.buckets[b][j].key != k {
        assert m.buckets[b][j].key in Keys(m);
      }
    }
    assert SlotsUnique(r);
  }

  lemma AppendedKeys<K(!new), V>(m: HashMap<K, V>, k: K, v: V)
    requires Valid(m)
    ensures Keys(Appended(m, k, v)) == Keys(m) + {k}
  {
    var r := Appended(m, k, v);
    var b := BucketOf(m, k);
    var n := |m.buckets[b]|;
    forall x | x in Keys(r) ensures x in Keys(m) + {k} {
      var c, j :| 0 <= c < |r.buckets| && 0 <= j < |r.buckets[c]| && r.buckets[c][j].key == x;
      if c != b || j < n {
        assert m.buckets[c][j].key == x;
      }
    }
    forall x | x in Keys(m) ensures x in Keys(r) {
      var c, j :| 0 <= c < |m.buckets| && 0 <= j < |m.buckets[c]| && m.buckets[c][j].key == x;
      assert r.buckets[c][j].key == x;
    }
    assert r.buckets[b][n].key == k;
  }

  lemma AppendedGet<K(!new), V>(m: HashMap<K, V>, k: K, v: V)
    requires Valid(m) && k !in Keys(m) && Valid(Appended(m, k, v))
    ensures Get(Appended(m, k, v), k) == Some(v)
    ensures forall k' | k' != k :: Get(Appended(m, k, v), k') == Get(m, k')
  {
    var r := Appended(m, k, v);
    var b := BucketOf(m, k);
    var n := |m.buckets[b]|;
    assert FindIn(r.buckets[b], k) == Some(n) by {
      FindInAppend(m.buckets[b], Entry(k, |m.values|), k);
    }
    forall k' | k' != k ensures Get(r, k') == Get(m, k') {
      var c := BucketOf(m, k');
      if c == b {
        FindInAppend(m.buckets[b], Entry(k, |m.values|), k');
      }
    }
  }

  /** Scanning a bucket extended at its end finds what the original bucket
      holds first, and the new entry only when nothing earlier matches. */
  lemma {:induction false} FindInAppend<K(!new)>(bucket: seq<Entry<K>>, e: Entry<K>, k: K)
    ensures FindIn(bucket + [e], k) ==
              if FindIn(bucket, k).Some? then FindIn(bucket, k)
              else if e.key == k then Some(|bucket|)
              else None
  {
    if |bucket| == 0 {
      assert [e][1..] == [];
    } else if bucket[0].key != k {
      assert (bucket + [e])[1..] == bucket[1..] + [e];
      FindInAppend(bucket[1..], e, k);
    }
  }

  /** `put`: store `v` under `k`, overwriting the slot of an existing key or
      appending a new entry and value. */
  function Put<K(==, !new), V>(m: HashMap<K, V>, k: K, v: V): (r: HashMap<K, V>)
    requires Valid(m)
    ensures Valid(r) && r.hash == m.hash
    ensures Get(r, k) == Some(v)
    ensures forall k' | k' != k :: Get(r, k') == Get(m, k')
    ensures Abstract(r) == Abstract(m)[k := v]
    ensures k in Keys(m) ==> r.buckets == m.buckets && |r.values| == |m.values|
    ensures k !in Keys(m) ==>
              && r.values == m.values + [v]
              && r.buckets == m.buckets[BucketOf(m, k) := m.buckets[BucketOf(m, k)] + [Entry(k, |r.values| - 1)]]
  {
    if Slot(m, k).Some? then StoreAt(m, k, v) else Append(m, k, v)
  }

  /** `or_insert`: insert only when `k` is absent; report whether it was. */
  function OrInsert<K(==, !new), V>(m: HashMap<K, V>, k: K, v: V): (r: (HashMap<K, V>, bool))
    requires Valid(m)
    ensures Valid(r.0)
    ensures r.1 <==> k !in Keys(m)
    ensures r.1 ==> Abstract(r.0) == Abstract(m)[k := v]
    ensures !r.1 ==> r.0 == m
  {
    if Slot(m, k).Some? then (m, false) else (Append(m, k, v), true)
  }

  /** `or_insert` succeeds once per key: a second call with any value
      reports false and leaves the table as the first call left it. */
  lemma OrInsertOnce<K(!new), V>(m: HashMap<K, V>, k: K, v: V, w: V)
    requires Valid(m)
    ensures var first := OrInsert(m, k, v).0;
            OrInsert(first, k, w) == (first, false) && Get(first, k).Some?
  {
  }

  /** A second `put` of the same key replaces the value without growing the
      value store. */
  lemma PutTwice<K(!new), V>(m: HashMap<K, V>, k: K, v: V, w: V)
    requires Valid(m)
    ensures var once := Put(m, k, v);
            var twice := Put(once, k, w);
            Get(twice, k) == Some(w) && |twice.values| == |once.values| && twice.buckets == once.buckets
  {
  }

  /** `update_with`: replace the value under `k` by `f` of it; false and no
      change when `k` is absent. */
  function UpdateWith<K(==, !new), V>(m: HashMap<K, V>, k: K, f: V -> V): (r: (HashMap<K, V>, bool))
    requires Valid(m)
    ensures Valid(r.0)
    ensures r.1 <==> k in Keys(m)
    ensures !r.1 ==> r.0 == m
    ensures r.1 ==> Get(r.0, k) == Some(f(Get(m, k).value))
    ensures r.1 ==> forall k' | k' != k :: Get(r.0, k') == Get(m, k')
    ensures r.1 ==> Abstract(r.0) == Abstract(m)[k := f(Abstract(m)[k])]
  {
    match Get(m, k)
    case None => (m, false)
    case Some(prior) => (StoreAt(m, k, f(prior)), true)
  }

  /** `update_with_or_insert`: like `update_with`, but an absent key is first
      seeded with `default`. */
  function UpdateWithOrInsert<K(==, !new), V>(m: HashMap<K, V>, k: K, f: V -> V, default: V): (r: HashMap<K, V>)
    requires Valid(m)
    ensures Valid(r)
    ensures Get(r, k) == Some(f(Get(m, k).GetOr(default)))
    ensures forall k' | k' != k :: Get(r, k') == Get(m, k')
    ensures Abstract(r) == Abstract(m)[k := f(if k in Abstract(m) then Abstract(m)[k] else default)]
  {
    match Get(m, k)
    case None => Append(m, k, f(default))
    case Some(prior) => StoreAt(m, k, f(prior))
  }

  /** `update_inplace`: run the caller's closure on the value under `k`,
      which may change the value and report a result of its own; `None` and
      no change when `k` is absent. */
  function UpdateInplace<K(==, !new), V, R>(m: HashMap<K, V>, k: K, f: V --> (V, R)): (r: (HashMap<K, V>, Option<R>))
    requires Valid(m)
    requires k in Keys(m) ==> f.requires(Get(m, k).value)
    ensures Valid(r.0)
    ensures r.1.Some? <==> k in Keys(m)
    ensures r.1.None? ==> r.0 == m
    ensures r.1.Some? ==> Get(r.0, k) == Some(f(Get(m, k).value).0) && r.1.value == f(Get(m, k).value).1
    ensures r.1.Some? ==> forall k' | k' != k :: Get(r.0, k') == Get(m, k')
  {
    match Get(m, k)
    case None => (m, None)
    case Some(prior) =>
      var (v, out) := f(prior);
      (StoreAt(m, k, v), Some(out))
  }

  /** `update_inplace_mut`: the closure mutates the value under `k` through an
      exclusive reference; false and no change when `k` is absent. */
  function UpdateInplaceMut<K(==, !new), V>(m: HashMap<K, V>, k: K, f: V --> V): (r: (HashMap<K, V>, bool))
    requires Valid(m)
    requires k in Keys(m) ==> f.requires(Get(m, k).value)
    ensures Valid(r.0)
    ensures r.1 <==> k in Keys(m)
    ensures !r.1 ==> r.0 == m
    ensures r.1 ==> Abstract(r.0) == Abstract(m)[k := f(Abstract(m)[k])]
  {
    var (m', out) := UpdateInplace(m, k, (v: V) requires f.requires(v) => (f(v), ()));
    if out.Some? then AbstractUpdate(m, m', k, f(Get(m, k).value)); (m', true)
    else (m', false)
  }

  /** The (key, value) pairs of the first `n` entries of bucket `b`, in
      insertion order. */
  function BucketVisits<K, V>(m: HashMap<K, V>, b: nat, n: nat): (r: seq<(K, V)>)
    requires Valid(m) && b < BucketsMax && n <= |m.buckets[b]|
    ensures |r| == n
    ensures forall i | 0 <= i < n :: r[i] == (m.buckets[b][i].key, m.values[m.buckets[b][i].slot])
  {
    if n == 0 then []
    else
      var e := m.buckets[b][n - 1];
      BucketVisits(m, b, n - 1) + [(e.key, m.values[e.slot])]
  }

  /** The pairs visited from bucket `b` onwards. */
  function VisitsFrom<K, V>(m: HashMap<K, V>, b: nat): seq<(K, V)>
    requires Valid(m) && b <= BucketsMax
    decreases BucketsMax - b
  {
    if b == BucketsMax then []
    else BucketVisits(m, b, |m.buckets[b]|) + VisitsFrom(m, b + 1)
  }

  /** `foreach`: the (key, value) pairs the callback sees, in bucket order
      and insertion order within a bucket. Every stored key is visited
      exactly once, with its value. */
  function Foreach<K(==, !new), V>(m: HashMap<K, V>): (r: seq<(K, V)>)
    requires Valid(m)
    ensures forall p | p in r :: p.0 in Abstract(m) && Abstract(m)[p.0] == p.1
    ensures forall k | k in Abstract(m) :: (k, Abstract(m)[k]) in r
    ensures forall i, j | 0 <= i < j < |r| :: r[i].0 != r[j].0
    ensures VisitOrdered(m, r)
  {
    var r := VisitsFrom(m, 0);
    VisitsFromProps(m, 0);
    ForeachAbstract(m, r);
    VisitsFromOrdered(m, 0);
    r
  }

  /** The position of `k`'s entry within its bucket (0 for an absent key). */
  ghost function Position<K(!new), V>(m: HashMap<K, V>, k: K): nat
    requires Valid(m)
  {
    match FindIn(m.buckets[BucketOf(m, k)], k)
    case Some(i) => i
    case None => 0
  }

  /** `k1` is visited before `k2`: an earlier bucket, or the same bucket and
      an earlier entry. */
  ghost predicate Precedes<K(!new), V>(m: HashMap<K, V>, k1: K, k2: K)
    requires Valid(m)
  {
    || BucketOf(m, k1) < BucketOf(m, k2)
    || (BucketOf(m, k1) == BucketOf(m, k2) && Position(m, k1) < Position(m, k2))
  }

  /** The pairs come in bucket order, and in entry order within a bucket. */
  ghost predicate VisitOrdered<K(!new), V>(m: HashMap<K, V>, r: seq<(K, V)>)
    requires Valid(m)
  {
    forall i, j | 0 <= i < j < |r| :: Precedes(m, r[i].0, r[j].0)
  }

  /** The entry at position `i` of bucket `b` is placed there: its key
      hashes to `b` and its scan position is `i`. */
  lemma EntryPosition<K(!new), V>(m: HashMap<K, V>, b: nat, i: nat)
    requires Valid(m) && b < BucketsMax && i < |m.buckets[b]|
    ensures BucketOf(m, m.buckets[b][i].key) == b
    ensures Position(m, m.buckets[b][i].key) == i
  {
    var k := m.buckets[b][i].key;
    var j := FindIn(m.buckets[b], k).value;
    assert j == i;
  }

  /** A bucket's pairs come in entry order, all from that bucket. */
  lemma BucketVisitsOrdered<K(!new), V>(m: HashMap<K, V>, b: nat)
    requires Valid(m) && b < BucketsMax
    ensures var r := BucketVisits(m, b, |m.buckets[b]|);
            && VisitOrdered(m, r)
            && forall i | 0 <= i < |r| :: BucketOf(m, r[i].0) == b
  {
    var r := BucketVisits(m, b, |m.buckets[b]|);
    forall i | 0 <= i < |r| ensures BucketOf(m, r[i].0) == b && Position(m, r[i].0) == i {
      EntryPosition(m, b, i);
    }
  }

  /** The visit from bucket `b` onwards is ordered and touches only buckets
      `b` and later. */
  lemma {:induction false} VisitsFromOrdered<K(!new), V>(m: HashMap<K, V>, b: nat)
    requires Valid(m) && b <= BucketsMax
    ensures VisitOrdered(m, VisitsFrom(m, b))
    ensures forall i | 0 <= i < |VisitsFrom(m, b)| :: BucketOf(m, VisitsFrom(m, b)[i].0) >= b
    decreases BucketsMax - b
  {
    if b < BucketsMax {
      var x := BucketVisits(m, b, |m.buckets[b]|);
      var y := VisitsFrom(m, b + 1);
      BucketVisitsOrdered(m, b);
      VisitsFromOrdered(m, b + 1);
      assert VisitsFrom(m, b) == x + y;
      OrderedConcat(m, x, y, b);
    }
  }

  /** One bucket's ordered pairs followed by an ordered visit of later
      buckets is ordered. */
  lemma OrderedConcat<K(!new), V>(m: HashMap<K, V>, x: seq<(K, V)>, y: seq<(K, V)>, b: nat)
    requires Valid(m)
    requires VisitOrdered(m, x) && VisitOrdered(m, y)
    requires forall i | 0 <= i < |x| :: BucketOf(m, x[i].0) == b
    requires forall i | 0 <= i < |y| :: BucketOf(m, y[i].0) > b
    ensures VisitOrdered(m, x + y)
    ensures forall i | 0 <= i < |x + y| :: BucketOf(m, (x + y)[i].0) >= b
  {
    var r := x + y;
    forall i, j | 0 <= i < j < |r| ensures Precedes(m, r[i].0, r[j].0) {
      if j < |x| {
        assert r[i] == x[i] && r[j] == x[j];
      } else if i >= |x| {
        assert r[i] == y[i - |x|] && r[j] == y[j - |x|];
      } else {
        assert r[i] == x[i] && r[j] == y[j - |x|];
      }
    }
    forall i | 0 <= i < |r| ensures BucketOf(m, r[i].0) >= b {
      if i < |x| { assert r[i] == x[i]; } else { assert r[i] == y[i - |x|]; }
    }
  }

  lemma ForeachAbstract<K(!new), V>(m: HashMap<K, V>, r: seq<(K, V)>)
    requires Valid(m)
    requires forall p | p in r :: Get(m, p.0) == Some(p.1)
    requires forall k | k in Keys(m) :: (k, Get(m, k).value) in r
    ensures forall p | p in r :: p.0 in Abstract(m) && Abstract(m)[p.0] == p.1
    ensures forall k | k in Abstract(m) :: (k, Abstract(m)[k]) in r
  {
    var a := Abstract(m);
    forall p | p in r ensures p.0 in a && a[p.0] == p.1 {
      assert Get(m, p.0) == Some(p.1);
    }
    forall k | k in a ensures (k, a[k]) in r {
      assert Get(m, k) == Some(a[k]);
    }
  }

  /** No key occurs twice among the pairs. */
  ghost predicate DistinctKeys<K, V>(r: seq<(K, V)>)
  {
    forall i, j | 0 <= i < j < |r| :: r[i].0 != r[j].0
  }

  lemma DistinctKeysConcat<K, V>(a: seq<(K, V)>, b: seq<(K, V)>)
    requires DistinctKeys(a) && DistinctKeys(b)
    requires forall p, q | p in a && q in b :: p.0 != q.0
    ensures DistinctKeys(a + b)
  {
    var r := a + b;
    forall i, j | 0 <= i < j < |r| ensures r[i].0 != r[j].0 {
      if i < |a| && |a| <= j {
        assert r[i] == a[i] && r[j] == b[j - |a|];
        assert a[i] in a && b[j - |a|] in b;
      } else if |a| <= i {
        assert r[i] == b[i - |a|] && r[j] == b[j - |a|];
      } else {
        assert r[i] == a[i] && r[j] == a[j];
      }
    }
  }

  lemma BucketVisitsProps<K(!new), V>(m: HashMap<K, V>, b: nat)
    requires Valid(m) && b < BucketsMax
    ensures forall p | p in BucketVisits(m, b, |m.buckets[b]|) :: BucketOf(m, p.0) == b && Get(m, p.0) == Some(p.1)
    ensures forall k | k in Keys(m) && BucketOf(m, k) == b :: (k, Get(m, k).value) in BucketVisits(m, b, |m.buckets[b]|)
    ensures DistinctKeys(BucketVisits(m, b, |m.buckets[b]|))
  {
    var r := BucketVisits(m, b, |m.buckets[b]|);
    var bucket := m.buckets[b];
    forall p | p in r ensures BucketOf(m, p.0) == b && Get(m, p.0) == Some(p.1) {
      var i :| 0 <= i < |r| && r[i] == p;
      var j := FindIn(bucket, p.0).value;
      assert j == i;
    }
    forall k | k in Keys(m) && BucketOf(m, k) == b ensures (k, Get(m, k).value) in r {
      var i := FindIn(bucket, k).value;
      assert r[i] == (k, Get(m, k).value);
    }
  }

  lemma {:induction false} VisitsFromProps<K(!new), V>(m: HashMap<K, V>, b: nat)
    requires Valid(m) && b <= BucketsMax
    ensures forall p | p in VisitsFrom(m, b) :: BucketOf(m, p.0) >= b && Get(m, p.0) == Some(p.1)
    ensures forall k | k in Keys(m) && BucketOf(m, k) >= b :: (k, Get(m, k).value) in VisitsFrom(m, b)
    ensures DistinctKeys(VisitsFrom(m, b))
    decreases BucketsMax - b
  {
    if b < BucketsMax {
      BucketVisitsProps(m, b);
      VisitsFromProps(m, b + 1);
      var head, tail := BucketVisits(m, b, |m.buckets[b]|), VisitsFrom(m, b + 1);
      var r := head + tail;
      assert r == VisitsFrom(m, b);
      forall p | p in r ensures BucketOf(m, p.0) >= b && Get(m, p.0) == Some(p.1) {
        assert p in head || p in tail;
      }
      forall k | k in Keys(m) && BucketOf(m, k) >= b ensures (k, Get(m, k).value) in r {
        if BucketOf(m, k) == b {
          assert (k, Get(m, k).value) in head;
        } else {
          assert (k, Get(m, k).value) in tail;
        }
      }
      forall p, q | p in head && q in tail ensures p.0 != q.0 {
        assert BucketOf(m, p.0) == b < BucketOf(m, q.0);
      }
      DistinctKeysConcat(head, tail);
    }
  }

  /** `clear`: every bucket emptied and the value store discarded. */
  function Clear<K(==, !new), V>(m: HashMap<K, V>): (r: HashMap<K, V>)
    ensures Valid(r) && r.hash == m.hash
    ensures Keys(r) == {}
    ensures forall k :: Get(r, k) == None
    ensures Abstract(r) == map[]
    ensures r.values == [] && forall b | 0 <= b < BucketsMax :: r.buckets[b] == []
  {
    New(m.hash)
  }

  /** `is_empty`: scans the buckets, as the source does. */
  method IsEmpty<K(==, !new), V>(m: HashMap<K, V>) returns (e: bool)
    requires Valid(m)
    ensures e <==> Keys(m) == {}
    ensures e <==> Abstract(m) == map[]
  {
    var b := 0;
    while b < BucketsMax
      invariant 0 <= b <= BucketsMax
      invariant forall c | 0 <= c < b :: m.buckets[c] == []
    {
      if m.buckets[b] != [] {
        assert m.buckets[b][0].key in Keys(m);
        return false;
      }
      b := b + 1;
    }
    return true;
  }
}

=== FILE: ordered_map.dfy ===
/** The ordered map the replay collects strokes in (`BTreeMap` keyed by
    timestamp in `src/main.rs`), as an association list kept in strictly
    ascending key order. `AsMap` is the map it represents. */
module OrderedMap {

  type Assoc<V> = seq<(int, V)>

  ghost predicate Sorted<V>(s: Assoc<V>)
  {
    forall i, j | 0 <= i < j < |s| :: s[i].0 < s[j].0
  }

  ghost function KeySet<V>(s: Assoc<V>): set<int>
  {
    set i | 0 <= i < |s| :: s[i].0
  }

  ghost function AsMap<V>(s: Assoc<V>): map<int, V>
  {
    if |s| == 0 then map[] else AsMap(s[1..])[s[0].0 := s[0].1]
  }

  /** `insert`: add `k` in its place, or replace the value of an existing
      `k`; order is kept and the represented map gets one update. */
  function Insert<V>(s: Assoc<V>, k: int, v: V): (r: Assoc<V>)
    requires Sorted(s)
    ensures Sorted(r)
    ensures KeySet(r) == KeySet(s) + {k}
    ensures AsMap(r) == AsMap(s)[k := v]
  {
    if |s| == 0 || k < s[0].0 then InsertFront(s, k, v); [(k, v)] + s
    else if k == s[0].0 then InsertReplace(s, k, v); [(k, v)] + s[1..]
    else
      var rest := Insert(s[1..], k, v);
      InsertAbove(s, k, v, rest);
      [s[0]] + rest
  }

  lemma InsertFront<V>(s: Assoc<V>, k: int, v: V)
    requires Sorted(s) && (|s| == 0 || k < s[0].0)
    ensures Sorted([(k, v)] + s)
    ensures KeySet([(k, v)] + s) == KeySet(s) + {k}
    ensures AsMap([(k, v)] + s) == AsMap(s)[k := v]
  {
    var r := [(k, v)] + s;
    assert r[1..] == s;
    KeySetCons((k, v), s);
    forall i, j | 0 <= i < j < |r| ensures r[i].0 < r[j].0 {
      if i > 0 {
        assert r[i] == s[i - 1] && r[j] == s[j - 1];
      } else {
        assert r[j] == s[j - 1];
      }
    }
  }

  lemma InsertReplace<V>(s: Assoc<V>, k: int, v: V)
    requires Sorted(s) && |s| > 0 && k == s[0].0
    ensures Sorted([(k, v)] + s[1..])
    ensures KeySet([(k, v)] + s[1..]) == KeySet(s) + {k}
    ensures AsMap([(k, v)] + s[1..]) == AsMap(s)[k := v]
  {
    var r := [(k, v)] + s[1..];
    assert r[1..] == s[1..];
    assert AsMap(r) == AsMap(s[1..])[k := v];
    assert AsMap(s) == AsMap(s[1..])[k := s[0].1];
    UpdateTwice(AsMap(s[1..]), k, s[0].1, v);
    KeySetCons((k, v), s[1..]);
    KeySetCons(s[0], s[1..]);
    assert [s[0]] + s[1..] == s;
    assert forall i | 0 < i < |r| :: r[i] == s[i];
  }

  lemma UpdateTwice<V>(m: map<int, V>, k: int, a: V, b: V)
    ensures m[k := a][k := b] == m[k := b]
  {
  }

  lemma UpdateSwap<V>(m: map<int, V>, k: int, a: V, j: int, b: V)
    requires k != j
    ensures m[k := a][j := b] == m[j := b][k := a]
  {
  }

  lemma InsertAbove<V>(s: Assoc<V>, k: int, v: V, rest: Assoc<V>)
    requires Sorted(s) && |s| > 0 && s[0].0 < k
    requires Sorted(rest) && KeySet(rest) == KeySet(s[1..]) + {k}
    requires AsMap(rest) == AsMap(s[1..])[k := v]
    ensures Sorted([s[0]] + rest)
    ensures KeySet([s[0]] + rest) == KeySet(s) + {k}
    ensures AsMap([s[0]] + rest) == AsMap(s)[k := v]
  {
    InsertAboveSorted(s, k, v, rest);
    var r := [s[0]] + rest;
    assert r[1..] == rest;
    assert AsMap(r) == AsMap(rest)[s[0].0 := s[0].1];
    assert AsMap(s) == AsMap(s[1..])[s[0].0 := s[0].1];
    UpdateSwap(AsMap(s[1..]), k, v, s[0].0, s[0].1);
    KeySetCons(s[0], rest);
    KeySetCons(s[0], s[1..]);
    assert [s[0]] + s[1..] == s;
  }

  lemma InsertAboveSorted<V>(s: Assoc<V>, k: int, v: V, rest: Assoc<V>)
    requires Sorted(s) && |s| > 0 && s[0].0 < k
    requires Sorted(rest) && KeySet(rest) == KeySet(s[1..]) + {k}
    ensures Sorted([s[0]] + rest)
  {
    var r := [s[0]] + rest;
    forall j | 0 <= j < |rest| ensures s[0].0 < rest[j].0 {
      assert rest[j].0 in KeySet(rest);
      if rest[j].0 != k {
        var i :| 0 <= i < |s[1..]| && s[1..][i].0 == rest[j].0;
        assert s[i + 1].0 == rest[j].0;
      }
    }
    forall i, j | 0 <= i < j < |r| ensures r[i].0 < r[j].0 {
      if i > 0 {
        assert r[i] == rest[i - 1] && r[j] == rest[j - 1];
      }
    }
  }

  lemma KeySetCons<V>(x: (int, V), s: Assoc<V>)
    ensures KeySet([x] + s) == {x.0} + KeySet(s)
  {
    var r := [x] + s;
    forall y | y in KeySet(r) ensures y in {x.0} + KeySet(s) {
      var i :| 0 <= i < |r| && r[i].0 == y;
      if i > 0 { assert s[i - 1].0 == y; }
    }
    forall y | y in KeySet(s) ensures y in KeySet(r) {
      var i :| 0 <= i < |s| && s[i].0 == y;
      assert r[i + 1].0 == y;
    }
    assert r[0].0 == x.0;
  }

  /** Every entry after an insert is the inserted pair or an entry from
      before; `j` locates the latter. */
  lemma {:induction false} InsertEntry<V>(s: Assoc<V>, k: int, v: V, i: nat) returns (j: nat)
    requires Sorted(s)
    requires i < |Insert(s, k, v)|
    ensures Insert(s, k, v)[i] == (k, v) || (j < |s| && Insert(s, k, v)[i] == s[j])
  {
    var r := Insert(s, k, v);
    if |s| == 0 || k < s[0].0 {
      assert r[1..] == s;
      j := if i == 0 then 0 else i - 1;
    } else if k == s[0].0 {
      j := i;
    } else if i == 0 {
      j := 0;
    } else {
      var rest := Insert(s[1..], k, v);
      assert r == [s[0]] + rest;
      var j' := InsertEntry(s[1..], k, v, i - 1);
      assert r[i] == rest[i - 1];
      j := j' + 1;
      assert j' < |s[1..]| ==> s[1..][j'] == s[j];
    }
  }

  /** The values in ascending key order: what iterating the map yields. */
  function Values<V>(s: Assoc<V>): (r: seq<V>)
    ensures |r| == |s|
    ensures forall i | 0 <= i < |s| :: r[i] == s[i].1
  {
    if |s| == 0 then [] else [s[0].1] + Values(s[1..])
  }

  /** In a sorted list every entry is what the represented map holds for its
      key, and the map's keys are the list's keys. */
  lemma {:induction false} AsMapOfSorted<V>(s: Assoc<V>)
    requires Sorted(s)
    ensures AsMap(s).Keys == KeySet(s)
    ensures forall i | 0 <= i < |s| :: AsMap(s)[s[i].0] == s[i].1
  {
    if |s| > 0 {
      AsMapOfSorted(s[1..]);
      KeySetCons(s[0], s[1..]);
      assert [s[0]] + s[1..] == s;
      forall i | 0 <= i < |s| ensures AsMap(s)[s[i].0] == s[i].1 {
        if i > 0 {
          assert s[1..][i - 1] == s[i];
        }
      }
    }
  }
}

=== FILE: palette.dfy ===
/** Stroke colours of `src/main.rs`: three bytes packed into a `u32` as
    `0xRRGGBB`, and the fixed palette a connecting user's colour is drawn
    from by user id. */
module Palette {
  type Byte = bv8

  /** The largest value of a `usize` on a 64-bit target, plus one. */
  const UsizeModulus: int := 0x1_0000_0000_0000_0000
  type Usize = x: int | 0 <= x < UsizeModulus

  /** `color(r, g, b)`: red in bits 16..23, green in 8..15, blue in 0..7;
      each component is recovered by shift and mask. */
  function Color(r: Byte, g: Byte, b: Byte): (c: bv32)
    ensures c < 0x100_0000
    ensures Components(c) == (r, g, b)
  {
    ((r as bv32) << 16) | ((g as bv32) << 8) | (b as bv32)
  }

  /** The packing is the weighted sum `r * 65536 + g * 256 + b`: the three
      fields occupy disjoint bits, so the `|` never carries. */
  lemma ColorIsWeightedSum(r: Byte, g: Byte, b: Byte)
    ensures Color(r, g, b) == (r as bv32) * 0x1_0000 + (g as bv32) * 0x100 + (b as bv32)
  {
  }

  /** The three components of a packed colour, read back by shift and mask. */
  function Components(c: bv32): (Byte, Byte, Byte)
  {
    (((c >> 16) & 0xFF) as Byte, ((c >> 8) & 0xFF) as Byte, (c & 0xFF) as Byte)
  }

  /** Every colour below 2^24 is the packing of its own components. */
  lemma ColorOfComponents(c: bv32)
    requires c < 0x100_0000
    ensures var rgb := Components(c); Color(rgb.0, rgb.1, rgb.2) == c
  {
  }

  /** `COLOR_PALLETE`: black, red, green, blue, olive, purple, teal and dark
      grey. */
  const PaletteSize: nat := 8
  const ColorPalette: seq<bv32> := [
    Color(0, 0, 0),
    Color(255, 0, 0),
    Color(0, 255, 0),
    Color(0, 0, 255),
    Color(128, 128, 0),
    Color(128, 0, 128),
    Color(0, 128, 128),
    Color(64, 64, 64)
  ]

  /** The palette slot of user `id`: `(my_id - 1) % 8`. User ids are issued
      from 1, so the `usize` subtraction never wraps. */
  function PaletteIndex(id: Usize): (i: nat)
    requires id >= 1
    ensures i < PaletteSize && i < |ColorPalette|
    ensures (id - 1 - i) % PaletteSize == 0
  {
    (id - 1) % PaletteSize
  }

  /** The colour a newly connected user `id` receives. */
  function PaletteColor(id: Usize): (c: bv32)
    requires id >= 1
    ensures c in ColorPalette
    ensures c < 0x100_0000
  {
    ColorPalette[PaletteIndex(id)]
  }

  /** The palette has eight different colours. */
  lemma PaletteDistinct()
    ensures |ColorPalette| == PaletteSize
    ensures forall i, j | 0 <= i < j < PaletteSize :: ColorPalette[i] != ColorPalette[j]
  {
  }

  /** Ids are dealt the palette round robin: user 1 gets the first colour,
      each next user the next slot, wrapping after the eighth. */
  lemma PaletteRoundRobin(id: Usize)
    requires 1 <= id < UsizeModulus - PaletteSize
    ensures PaletteIndex(1) == 0
    ensures PaletteIndex(id + 1) == (PaletteIndex(id) + 1) % PaletteSize
    ensures PaletteIndex(id + PaletteSize) == PaletteIndex(id)
  {
    var q, i := (id - 1) / 8, (id - 1) % 8;
    assert id - 1 == 8 * q + i;
    if i < 7 {
      assert id == 8 * q + (i + 1);
    } else {
      assert id == 8 * (q + 1) + 0;
    }
    assert id + 7 == 8 * (q + 1) + i;
  }

  /** Any eight users with consecutive ids have eight different colours. */
  lemma ConsecutiveUsersDiffer(a: Usize, b: Usize)
    requires 1 <= a < b < a + PaletteSize
    ensures PaletteColor(a) != PaletteColor(b)
  {
    PaletteDistinct();
    var i, j := PaletteIndex(a), PaletteIndex(b);
    assert i != j;
    if i < j {
      assert ColorPalette[i] != ColorPalette[j];
    } else {
      assert ColorPalette[j] != ColorPalette[i];
    }
  }
}

=== FILE: replay.dfy ===
/** The global replay of `src/main.rs` (the redraw after an undo or redo):
    every user's chain is walked from its head, strokes are kept while their
    timestamp is at most that user's last timestamp, the walk stops at the
    first stroke past it, and all kept strokes go into one map keyed by
    timestamp, which is emitted in ascending order. */
module Replay {
  import opened Wrappers
  import opened Strokes
  import OrderedMap

  /** The strokes a walk of `chain` keeps: the longest prefix whose
      timestamps are all at most `last`. */
  function Kept(chain: seq<Line>, last: Time): (r: seq<Line>)
    ensures r <= chain
    ensures forall i | 0 <= i < |r| :: r[i].ts <= last
    ensures |r| < |chain| ==> chain[|r|].ts > last
  {
    if |chain| == 0 || chain[0].ts > last then []
    else [chain[0]] + Kept(chain[1..], last)
  }

  /** The strokes of one user the replay shows. */
  function KeptOf(h: History): seq<Line>
    requires Valid(h)
  {
    Kept(h.chain, LastTimestamp(h))
  }

  ghost predicate AllValid(hs: seq<History>)
  {
    forall u | 0 <= u < |hs| :: Valid(hs[u])
  }

  /** Every kept stroke, user after user in visiting order. */
  function Visit(hs: seq<History>): seq<Line>
    requires AllValid(hs)
  {
    if |hs| == 0 then [] else Visit(hs[..|hs| - 1]) + KeptOf(hs[|hs| - 1])
  }

  /** The ordered map of the replay: timestamp to stroke. */
  type Global = OrderedMap.Assoc<Line>

  /** Each entry's key is its stroke's timestamp. */
  ghost predicate KeyedByTs(acc: Global)
  {
    forall i | 0 <= i < |acc| :: acc[i].1.ts == acc[i].0
  }

  /** Inserting strokes one after another under their timestamps. */
  function InsertAll(acc: Global, vis: seq<Line>): (r: Global)
    requires OrderedMap.Sorted(acc) && KeyedByTs(acc)
    ensures OrderedMap.Sorted(r) && KeyedByTs(r)
  {
    if |vis| == 0 then acc
    else
      var l := vis[|vis| - 1];
      var prefix := InsertAll(acc, vis[..|vis| - 1]);
      var r := OrderedMap.Insert(prefix, l.ts, l);
      InsertKeyed(prefix, l);
      r
  }

  lemma InsertKeyed(s: Global, l: Line)
    requires OrderedMap.Sorted(s) && KeyedByTs(s)
    ensures KeyedByTs(OrderedMap.Insert(s, l.ts, l))
  {
    var r := OrderedMap.Insert(s, l.ts, l);
    forall i | 0 <= i < |r| ensures r[i].1.ts == r[i].0 {
      var j := OrderedMap.InsertEntry(s, l.ts, l, i);
    }
  }

  /** `global_history` after the walk: the ordered map holding every kept
      stroke, later ones replacing earlier ones with an equal timestamp. */
  function Collect(hs: seq<History>): (r: Global)
    requires AllValid(hs)
    ensures OrderedMap.Sorted(r) && KeyedByTs(r)
  {
    InsertAll([], Visit(hs))
  }

  /** The redraw list: the collected strokes in ascending timestamp order. */
  function ReplayAll(hs: seq<History>): seq<Line>
    requires AllValid(hs)
  {
    OrderedMap.Values(Collect(hs))
  }

  /** The reference meaning of the collection: a map from timestamp to the
      stroke last inserted under it. */
  ghost function Latest(vis: seq<Line>): map<Time, Line>
  {
    if |vis| == 0 then map[]
    else Latest(vis[..|vis| - 1])[vis[|vis| - 1].ts := vis[|vis| - 1]]
  }

  /** No stroke after position `j` has the timestamp of the one at `j`. */
  ghost predicate LastWith(vis: seq<Line>, j: int)
    requires 0 <= j < |vis|
  {
    forall j' | j < j' < |vis| :: vis[j'].ts != vis[j].ts
  }

  lemma {:induction false} InsertAllIsLatest(vis: seq<Line>)
    ensures OrderedMap.AsMap(InsertAll([], vis)) == Latest(vis)
  {
    if |vis| > 0 {
      InsertAllIsLatest(vis[..|vis| - 1]);
    }
  }

  /** `Latest` holds exactly the visited timestamps, each mapped to a
      visited stroke with that timestamp, namely the last one visited. */
  lemma {:induction false} LatestProps(vis: seq<Line>)
    ensures forall j | 0 <= j < |vis| :: vis[j].ts in Latest(vis)
    ensures forall t | t in Latest(vis) :: Latest(vis)[t] in vis && Latest(vis)[t].ts == t
    ensures forall j | 0 <= j < |vis| && LastWith(vis, j) :: Latest(vis)[vis[j].ts] == vis[j]
  {
    if |vis| > 0 {
      var n := |vis| - 1;
      var pre := vis[..n];
      var m := Latest(pre);
      LatestProps(pre);
      assert Latest(vis) == m[vis[n].ts := vis[n]];
      forall j | 0 <= j < |vis| ensures vis[j].ts in Latest(vis) {
        if j < n {
          assert pre[j] == vis[j];
        }
      }
      forall t | t in Latest(vis) ensures Latest(vis)[t] in vis && Latest(vis)[t].ts == t {
        if t != vis[n].ts {
          var i :| 0 <= i < n && pre[i] == m[t];
          assert vis[i] == m[t];
        }
      }
      forall j | 0 <= j < |vis| && LastWith(vis, j) ensures Latest(vis)[vis[j].ts] == vis[j] {
        if j < n {
          assert pre[j] == vis[j];
          assert LastWith(pre, j);
        }
      }
    }
  }

  /** A line of the visit belongs to the kept strokes of some user. */
  lemma {:induction false} VisitOrigin(hs: seq<History>, l: Line)
    requires AllValid(hs) && l in Visit(hs)
    ensures exists u :: 0 <= u < |hs| && l in KeptOf(hs[u])
  {
    var n := |hs| - 1;
    if l in KeptOf(hs[n]) {
    } else {
      assert AllValid(hs[..n]);
      VisitOrigin(hs[..n], l);
      var u :| 0 <= u < n && l in KeptOf(hs[..n][u]);
      assert hs[..n][u] == hs[u];
    }
  }

  /** The redraw list is in strictly ascending timestamp order, so it holds
      at most one stroke per timestamp. */
  lemma ReplaySorted(hs: seq<History>)
    requires AllValid(hs)
    ensures var out := ReplayAll(hs);
            forall i, j | 0 <= i < j < |out| :: out[i].ts < out[j].ts
  {
    ValuesAscending(Collect(hs));
  }

  /** The values of a collection keyed by timestamp ascend strictly in
      timestamp. */
  lemma ValuesAscending(acc: Global)
    requires OrderedMap.Sorted(acc) && KeyedByTs(acc)
    ensures var out := OrderedMap.Values(acc);
            forall i, j | 0 <= i < j < |out| :: out[i].ts < out[j].ts
  {
    var out := OrderedMap.Values(acc);
    forall i, j | 0 <= i < j < |out| ensures out[i].ts < out[j].ts {
      assert out[i] == acc[i].1 && out[j] == acc[j].1;
    }
  }

  /** Each entry of the collection is what `Latest` holds for its key, and
      every key of `Latest` is collected. */
  lemma CollectIsLatest(acc: Global, vis: seq<Line>)
    requires acc == InsertAll([], vis)
    ensures forall i | 0 <= i < |acc| :: acc[i].0 in Latest(vis) && Latest(vis)[acc[i].0] == acc[i].1
    ensures forall t | t in Latest(vis) :: t in OrderedMap.KeySet(acc)
  {
    InsertAllIsLatest(vis);
    OrderedMap.AsMapOfSorted(acc);
  }

  /** The redraw list shows exactly one stroke for every timestamp kept
      from some user: the one visited last; nothing else appears. */
  lemma ReplayIsLatest(hs: seq<History>)
    requires AllValid(hs)
    ensures var out, vis := ReplayAll(hs), Visit(hs);
            && (forall i | 0 <= i < |out| :: out[i] in vis)
            && (forall j | 0 <= j < |vis| :: exists i :: 0 <= i < |out| && out[i].ts == vis[j].ts)
            && (forall i, j | 0 <= i < |out| && 0 <= j < |vis| && out[i].ts == vis[j].ts && LastWith(vis, j) :: out[i] == vis[j])
  {
    ReplayOfVisit(Visit(hs));
  }

  /** The collection of any visit, read back in key order, shows one
      visited stroke per visited timestamp, the last one visited. */
  lemma ReplayOfVisit(vis: seq<Line>)
    ensures var out := OrderedMap.Values(InsertAll([], vis));
            && (forall i | 0 <= i < |out| :: out[i] in vis)
            && (forall j | 0 <= j < |vis| :: exists i :: 0 <= i < |out| && out[i].ts == vis[j].ts)
            && (forall i, j | 0 <= i < |out| && 0 <= j < |vis| && out[i].ts == vis[j].ts && LastWith(vis, j) :: out[i] == vis[j])
  {
    var acc := InsertAll([], vis);
    CollectIsLatest(acc, vis);
    LatestProps(vis);
    ReplayFromLatest(acc, vis, OrderedMap.Values(acc));
  }

  lemma ReplayFromLatest(acc: Global, vis: seq<Line>, out: seq<Line>)
    requires KeyedByTs(acc) && out == OrderedMap.Values(acc)
    requires forall i | 0 <= i < |acc| :: acc[i].0 in Latest(vis) && Latest(vis)[acc[i].0] == acc[i].1
    requires forall t | t in Latest(vis) :: t in OrderedMap.KeySet(acc)
    requires forall j | 0 <= j < |vis| :: vis[j].ts in Latest(vis)
    requires forall t | t in Latest(vis) :: Latest(vis)[t] in vis
    requires forall j | 0 <= j < |vis| && LastWith(vis, j) :: Latest(vis)[vis[j].ts] == vis[j]
    ensures forall i | 0 <= i < |out| :: out[i] in vis
    ensures forall j | 0 <= j < |vis| :: exists i :: 0 <= i < |out| && out[i].ts == vis[j].ts
    ensures forall i, j | 0 <= i < |out| && 0 <= j < |vis| && out[i].ts == vis[j].ts && LastWith(vis, j) :: out[i] == vis[j]
  {
    var m := Latest(vis);
    forall i | 0 <= i < |out| ensures out[i] in vis && out[i] == m[out[i].ts] {
      assert out[i] == acc[i].1 && out[i].ts == acc[i].0;
    }
    forall j | 0 <= j < |vis| ensures exists i :: 0 <= i < |out| && out[i].ts == vis[j].ts {
      var i :| 0 <= i < |acc| && acc[i].0 == vis[j].ts;
      assert out[i] == acc[i].1;
    }
  }

  /** Every stroke the redraw shows was kept by its owner's walk: it lies on
      that user's chain before the first stroke past the user's last
      timestamp, and its own timestamp is at most that. */
  lemma ReplayOnlyKept(hs: seq<History>)
    requires AllValid(hs)
    ensures var out := ReplayAll(hs);
            forall i | 0 <= i < |out| ::
              exists u :: 0 <= u < |hs| && out[i] in KeptOf(hs[u]) && out[i].ts <= LastTimestamp(hs[u])
  {
    var out := ReplayAll(hs);
    ReplayIsLatest(hs);
    forall i | 0 <= i < |out|
      ensures exists u :: 0 <= u < |hs| && out[i] in KeptOf(hs[u]) && out[i].ts <= LastTimestamp(hs[u])
    {
      VisitOrigin(hs, out[i]);
      var u :| 0 <= u < |hs| && out[i] in KeptOf(hs[u]);
      KeptBelowLast(hs[u], out[i]);
    }
  }

  lemma KeptBelowLast(h: History, l: Line)
    requires Valid(h) && l in KeptOf(h)
    ensures l.ts <= LastTimestamp(h) && l in h.chain
  {
    var k := KeptOf(h);
    var p :| 0 <= p < |k| && k[p] == l;
    assert h.chain[p] == l;
  }

  /** A chain whose timestamps strictly increase and lie after the epoch. */
  ghost predicate StrictlyTimed(h: History)
  {
    && (forall i | 0 <= i < |h.chain| :: h.chain[i].ts > Epoch)
    && (forall i, j | 0 <= i < j < |h.chain| :: h.chain[i].ts < h.chain[j].ts)
  }

  /** With strictly increasing timestamps after the epoch, a user's shown
      strokes are exactly those up to and including the cursor. */
  lemma KeptIsCursorPrefix(h: History)
    requires Valid(h) && StrictlyTimed(h)
    ensures KeptOf(h) == h.chain[..h.cur + 1]
  {
    var r, last := KeptOf(h), LastTimestamp(h);
    assert forall i | 0 <= i <= h.cur :: h.chain[i].ts <= last;
    assert h.cur + 1 < |h.chain| ==> h.chain[h.cur + 1].ts > last;
    assert forall i | 0 <= i < |r| :: h.chain[i] == r[i];
    assert |r| == h.cur + 1;
    assert r == h.chain[..|r|];
  }

  /** A timestamp-walk counterexample: two strokes with the same timestamp,
      the second undone. The walk keeps both, and the collection then shows
      the undone stroke in place of the current one. */
  lemma EqualTimestampsShowUndone(a: Line, b: Line)
    requires a.ts == b.ts == 5 && a.prev == -1 && b.prev == 0 && a != b
    ensures var h := History([a, b], 0);
            && Valid(h)
            && KeptOf(h) == [a, b] != h.chain[..h.cur + 1]
            && ReplayAll([h]) == [b]
            && ReplayInEffect([h]) == [a]
  {
    var h := History([a, b], 0);
    EqualTimestampsVisits(a, b);
    InsertSameTs(a, b);
    assert Collect([h]) == [(5, b)];
    assert OrderedMap.Values([(5, b)]) == [b];
    assert OrderedMap.Values([(5, a)]) == [a];
  }

  /** The two visits of the counterexample: the walk keeps both strokes,
      the cursor-bounded visit only the first. */
  lemma EqualTimestampsVisits(a: Line, b: Line)
    requires a.ts == b.ts == 5 && a.prev == -1 && b.prev == 0
    ensures var h := History([a, b], 0);
            && Valid(h)
            && KeptOf(h) == [a, b]
            && Visit([h]) == [a, b]
            && VisitInEffect([h]) == [a]
  {
    var h := History([a, b], 0);
    assert [a, b][1..] == [b];
    assert KeptOf(h) == [a, b];
    assert [h][..0] == [];
    assert [a, b][..1] == [a];
    assert InEffect(h) == [a];
  }

  /** Inserting two strokes with one timestamp keeps only the second. */
  lemma InsertSameTs(a: Line, b: Line)
    requires a.ts == b.ts
    ensures InsertAll([], [a]) == [(a.ts, a)]
    ensures InsertAll([], [a, b]) == [(a.ts, b)]
  {
    assert [a][..0] == [];
    assert [a, b][..1] == [a];
  }

  /** A second counterexample: the clock stepped back between two strokes.
      Nothing is undone, yet the walk stops before the first stroke. */
  lemma ClockStepBackHidesStrokes(a: Line, b: Line)
    requires a.ts == 10 && b.ts == 5 && a.prev == -1 && b.prev == 0
    ensures var h := History([a, b], 1);
            && Valid(h)
            && KeptOf(h) == [] != h.chain[..h.cur + 1]
  {
  }

  /** The walk that stops after the cursor's stroke (comparing handles
      rather than timestamps): it collects exactly the strokes in effect,
      whatever the timestamps. */
  method CollectInEffect(h: History) returns (kept: seq<Line>)
    requires Valid(h)
    ensures kept == InEffect(h)
  {
    kept := [];
    var curr := if h.cur == -1 then None else Head(h);
    while curr.Some?
      invariant curr.Some? ==> curr.value == |kept| <= h.cur
      invariant curr.None? ==> |kept| == h.cur + 1
      invariant kept == h.chain[..|kept|]
      decreases |h.chain| - |kept|
    {
      var i := curr.value;
      kept := kept + [h.chain[i]];
      curr := if i == h.cur then None else Next(h, i);
    }
  }

  /** The strokes in effect for one user: head through the cursor. */
  function InEffect(h: History): seq<Line>
    requires Valid(h)
  {
    h.chain[..h.cur + 1]
  }

  /** Every stroke in effect, user after user in visiting order. */
  function VisitInEffect(hs: seq<History>): seq<Line>
    requires AllValid(hs)
  {
    if |hs| == 0 then [] else VisitInEffect(hs[..|hs| - 1]) + InEffect(hs[|hs| - 1])
  }

  /** The corrected redraw list: the strokes in effect, collected under
      their timestamps and read back in ascending order. */
  function ReplayInEffect(hs: seq<History>): (out: seq<Line>)
    requires AllValid(hs)
    ensures forall i, j | 0 <= i < j < |out| :: out[i].ts < out[j].ts
  {
    var acc := InsertAll([], VisitInEffect(hs));
    ValuesAscending(acc);
    OrderedMap.Values(acc)
  }

  /** A line of the corrected visit is in effect for some user. */
  lemma {:induction false} VisitInEffectOrigin(hs: seq<History>, l: Line)
    requires AllValid(hs) && l in VisitInEffect(hs)
    ensures exists u :: 0 <= u < |hs| && l in InEffect(hs[u])
  {
    var n := |hs| - 1;
    if l !in InEffect(hs[n]) {
      assert AllValid(hs[..n]);
      VisitInEffectOrigin(hs[..n], l);
      var u :| 0 <= u < n && l in InEffect(hs[..n][u]);
      assert hs[..n][u] == hs[u];
    }
  }

  /** The corrected redraw never shows an undone stroke: each shown stroke
      is on its user's chain at or before the cursor. */
  lemma ReplayInEffectShowsOnlyInEffect(hs: seq<History>)
    requires AllValid(hs)
    ensures var out := ReplayInEffect(hs);
            forall i | 0 <= i < |out| :: exists u :: 0 <= u < |hs| && out[i] in InEffect(hs[u])
  {
    var out := ReplayInEffect(hs);
    ReplayOfVisit(VisitInEffect(hs));
    forall i | 0 <= i < |out| ensures exists u :: 0 <= u < |hs| && out[i] in InEffect(hs[u]) {
      VisitInEffectOrigin(hs, out[i]);
    }
  }

  /** Every timestamp in effect for some user is shown by the corrected
      redraw. */
  lemma ReplayInEffectShowsAll(hs: seq<History>)
    requires AllValid(hs)
    ensures var out, vis := ReplayInEffect(hs), VisitInEffect(hs);
            forall j | 0 <= j < |vis| :: exists i :: 0 <= i < |out| && out[i].ts == vis[j].ts
  {
    var vis := VisitInEffect(hs);
    assert ReplayInEffect(hs) == OrderedMap.Values(InsertAll([], vis));
    ReplayShowsVisit(vis, ReplayInEffect(hs));
  }

  /** The collection of a visit, read back, shows every visited timestamp. */
  lemma ReplayShowsVisit(vis: seq<Line>, out: seq<Line>)
    requires out == OrderedMap.Values(InsertAll([], vis))
    ensures forall j | 0 <= j < |vis| :: exists i :: 0 <= i < |out| && out[i].ts == vis[j].ts
  {
    ReplayOfVisit(vis);
  }

  /** With strictly increasing timestamps on every chain the timestamp walk
      visits exactly the strokes in effect. */
  lemma {:induction false} VisitAgreesWhenTimed(hs: seq<History>)
    requires AllValid(hs)
    requires forall u | 0 <= u < |hs| :: StrictlyTimed(hs[u])
    ensures Visit(hs) == VisitInEffect(hs)
  {
    if |hs| > 0 {
      var n := |hs| - 1;
      assert AllValid(hs[..n]);
      VisitAgreesWhenTimed(hs[..n]);
      KeptIsCursorPrefix(hs[n]);
    }
  }

  /** ... and so the source's redraw list is the corrected one. */
  lemma ReplayAgreesWhenTimed(hs: seq<History>)
    requires AllValid(hs)
    requires forall u | 0 <= u < |hs| :: StrictlyTimed(hs[u])
    ensures ReplayAll(hs) == ReplayInEffect(hs)
  {
    VisitAgreesWhenTimed(hs);
  }

  lemma {:induction false} InsertAllConcat(acc: Global, a: seq<Line>, b: seq<Line>)
    requires OrderedMap.Sorted(acc) && KeyedByTs(acc)
    ensures InsertAll(acc, a + b) == InsertAll(InsertAll(acc, a), b)
    decreases |b|
  {
    if |b| > 0 {
      assert (a + b)[..|a + b| - 1] == a + b[..|b| - 1];
      InsertAllConcat(acc, a, b[..|b| - 1]);
    } else {
      assert a + b == a;
    }
  }

  /** One user's part of the redraw, as the source runs it: walk the chain
      from its head through the `next` handles, insert each stroke whose
      timestamp is at most the user's last timestamp, and stop at the first
      stroke past it. */
  method WalkUser(h: History, acc0: Global) returns (acc: Global)
    requires Valid(h) && OrderedMap.Sorted(acc0) && KeyedByTs(acc0)
    ensures acc == InsertAll(acc0, KeptOf(h))
  {
    acc := acc0;
    var last := LastTimestamp(h);
    var curr := Head(h);
    ghost var kept := KeptOf(h);
    ghost var n := 0;
    while curr.Some?
      invariant 0 <= n <= |kept|
      invariant curr == (if n < |h.chain| then Some(n) else None)
      invariant acc == InsertAll(acc0, kept[..n])
      decreases |h.chain| - n
    {
      var item := h.chain[curr.value];
      if item.ts > last {
        break;
      }
      assert n < |kept|;
      assert kept[n] == item;
      InsertAllStep(acc0, kept, n);
      acc := OrderedMap.Insert(acc, item.ts, item);
      curr := Next(h, curr.value);
      n := n + 1;
    }
    assert n == |kept|;
    assert kept[..n] == kept;
  }

  /** The kept strokes are the prefix up to the first stroke past `last`. */
  lemma {:induction false} KeptIsLongestPrefix(chain: seq<Line>, last: Time, n: nat)
    requires n <= |chain|
    requires forall i | 0 <= i < n :: chain[i].ts <= last
    requires n == |chain| || chain[n].ts > last
    ensures Kept(chain, last) == chain[..n]
  {
    if n > 0 {
      KeptIsLongestPrefix(chain[1..], last, n - 1);
      assert chain[1..][..n - 1] == chain[1..n];
      assert chain[..n] == [chain[0]] + chain[1..n];
    }
  }

  /** Inserting one more stroke of a sequence extends the insertion of its
      prefix by one `insert`. */
  lemma InsertAllStep(acc: Global, vis: seq<Line>, n: nat)
    requires OrderedMap.Sorted(acc) && KeyedByTs(acc)
    requires n < |vis|
    ensures InsertAll(acc, vis[..n + 1]) == OrderedMap.Insert(InsertAll(acc, vis[..n]), vis[n].ts, vis[n])
  {
    assert vis[..n + 1][..n] == vis[..n];
  }

  /** The redraw: every user in visiting order, then the collected strokes
      in ascending timestamp order. */
  method Redraw(hs: seq<History>) returns (out: seq<Line>)
    requires AllValid(hs)
    ensures out == ReplayAll(hs)
    ensures forall i, j | 0 <= i < j < |out| :: out[i].ts < out[j].ts
  {
    var acc: Global := [];
    var u := 0;
    while u < |hs|
      invariant 0 <= u <= |hs|
      invariant AllValid(hs[..u])
      invariant acc == Collect(hs[..u])
    {
      assert hs[..u + 1][..u] == hs[..u];
      assert AllValid(hs[..u + 1]);
      InsertAllConcat([], Visit(hs[..u]), KeptOf(hs[u]));
      acc := WalkUser(hs[u], acc);
      u := u + 1;
    }
    assert hs[..u] == hs;
    out := OrderedMap.Values(acc);
    ReplaySorted(hs);
  }
}

=== FILE: server.dfy ===
/** The per-user database of `src/main.rs` and the message handlers that
    change it: a connecting user's record is created once, `draw` appends a
    stroke in the user's colour, `undo` and `redo` move the user's cursor,
    and a successful move (or an explicit `redraw`) broadcasts the replay of
    every user's strokes. */
module Server {
  import opened Wrappers
  import opened Strokes
  import opened Palette
  import DurableMap
  import Replay

  /** `UserInfo`: display name, password, stroke colour and history. */
  datatype UserInfo = UserInfo(name: string, pass: string, color: bv32, history: History)

  /** The persistent database: user id to record. */
  type Db = DurableMap.HashMap<Usize, UserInfo>

  /** The table is well formed and every user's history is. */
  ghost predicate ValidDb(db: Db)
  {
    && DurableMap.Valid(db)
    && forall id | id in DurableMap.Keys(db) :: Valid(DurableMap.Get(db, id).value.history)
  }

  // Decimal rendering of ids, as `format!("{}")` writes them.

  function DigitChar(d: nat): (c: char)
    requires d < 10
    ensures '0' <= c <= '9' && c as int - '0' as int == d
  {
    "0123456789"[d]
  }

  ghost predicate AllDigits(s: string)
  {
    forall i | 0 <= i < |s| :: '0' <= s[i] <= '9'
  }

  /** The decimal digits of `n`, most significant first, without leading
      zeros. */
  function Decimal(n: nat): (s: string)
    ensures |s| > 0 && AllDigits(s)
    ensures n >= 10 ==> s[0] != '0'
    decreases n
  {
    if n < 10 then [DigitChar(n)] else Decimal(n / 10) + [DigitChar(n % 10)]
  }

  /** The value a string of decimal digits denotes. */
  function DecimalValue(s: string): nat
    requires AllDigits(s)
  {
    if |s| == 0 then 0 else DecimalValue(s[..|s| - 1]) * 10 + (s[|s| - 1] as int - '0' as int)
  }

  /** Reading back the rendering of `n` gives `n`. */
  lemma {:induction false} DecimalRoundTrip(n: nat)
    ensures DecimalValue(Decimal(n)) == n
    decreases n
  {
    var s := Decimal(n);
    if n >= 10 {
      DecimalRoundTrip(n / 10);
      assert s[..|s| - 1] == Decimal(n / 10);
    }
  }

  /** The default display name `User<#id>`. */
  function DefaultName(id: Usize): (name: string)
    ensures |name| > 7 && name[..6] == "User<#" && name[|name| - 1] == '>'
    ensures AllDigits(name[6..|name| - 1])
    ensures DecimalValue(name[6..|name| - 1]) == id
    ensures |name| > 8 ==> name[6] != '0'
  {
    var digits := Decimal(id);
    DecimalRoundTrip(id);
    var name := "User<#" + digits + ">";
    assert name[6..|name| - 1] == digits;
    name
  }

  /** The record a connecting user receives: default name, password
      `0000`, the palette colour of the id, and an empty history. */
  function NewUser(id: Usize): (u: UserInfo)
    requires id >= 1
    ensures u.color == ColorPalette[PaletteIndex(id)]
    ensures Valid(u.history) && u.history.chain == [] && Head(u.history).None?
    ensures LastTimestamp(u.history) == Epoch
  {
    UserInfo(DefaultName(id), "0000", PaletteColor(id), Init())
  }

  /** Connection (`or_insert` of the new record): the record is created
      only when the id has none; an existing record is never overwritten. */
  function Connect(db: Db, id: Usize): (r: Db)
    requires ValidDb(db) && id >= 1
    ensures ValidDb(r)
    ensures id in DurableMap.Keys(db) ==> r == db
    ensures id !in DurableMap.Keys(db) ==> DurableMap.Abstract(r) == DurableMap.Abstract(db)[id := NewUser(id)]
    ensures DurableMap.Keys(r) == DurableMap.Keys(db) + {id}
  {
    var out := DurableMap.OrInsert(db, id, NewUser(id));
    var r := out.0;
    assert DurableMap.Keys(r) == DurableMap.Abstract(r).Keys;
    forall k | k in DurableMap.Keys(r) ensures Valid(DurableMap.Get(r, k).value.history) {
      if k != id {
        assert DurableMap.Get(r, k) == DurableMap.Get(db, k);
      }
    }
    r
  }

  /** Connecting twice is connecting once. */
  lemma ConnectIdempotent(db: Db, id: Usize)
    requires ValidDb(db) && id >= 1
    ensures Connect(Connect(db, id), id) == Connect(db, id)
  {
  }

  // Drawing.

  const I64Modulus: int := 0x1_0000_0000_0000_0000
  type I64 = x: int | -0x8000_0000_0000_0000 <= x < 0x8000_0000_0000_0000

  /** Rust's `x as i32` on an `i64`: keep the low 32 bits, read them as
      two's complement. */
  function WrapI32(x: I64): (y: I32)
    ensures (x - y) % 0x1_0000_0000 == 0
    ensures -0x8000_0000 <= x < 0x8000_0000 ==> y == x
  {
    var low := x % 0x1_0000_0000;
    if low < 0x8000_0000 then low else low - 0x1_0000_0000
  }

  /** The point list of a `draw` message, each coordinate cast to `i32`. */
  function ToPoints(raw: seq<(I64, I64)>): (ps: seq<Point>)
    ensures |ps| == |raw|
    ensures forall i | 0 <= i < |raw| :: ps[i] == (WrapI32(raw[i].0), WrapI32(raw[i].1))
  {
    if |raw| == 0 then [] else [(WrapI32(raw[0].0), WrapI32(raw[0].1))] + ToPoints(raw[1..])
  }

  /** The colour a stroke is drawn in: the user's own, or 0 for an unknown
      id (whose update then does nothing). */
  function StrokeColor(db: Db, id: Usize): (c: bv32)
    requires DurableMap.Valid(db)
    ensures id in DurableMap.Keys(db) ==> c == DurableMap.Get(db, id).value.color
    ensures id !in DurableMap.Keys(db) ==> c == 0
  {
    match DurableMap.Get(db, id)
    case Some(u) => u.color
    case None => 0
  }

  /** The `draw` handler: an empty point array changes nothing; otherwise
      the user's history gets a new stroke in the user's colour, stamped
      `now`, through `update_inplace`. */
  function Draw(db: Db, id: Usize, raw: seq<(I64, I64)>, now: Time): (r: Db)
    requires ValidDb(db)
    ensures ValidDb(r)
    ensures |raw| == 0 || id !in DurableMap.Keys(db) ==> r == db
    ensures |raw| > 0 && id in DurableMap.Keys(db) ==>
              var u := DurableMap.Abstract(db)[id];
              DurableMap.Abstract(r) == DurableMap.Abstract(db)[id := u.(history := Add(u.history, ToPoints(raw), u.color, now))]
  {
    if |raw| == 0 then db
    else
      var points := ToPoints(raw);
      var c := StrokeColor(db, id);
      var add := (u: UserInfo) requires Valid(u.history) => (u.(history := Add(u.history, points, c, now)), ());
      var out := DurableMap.UpdateInplace(db, id, add);
      var r := out.0;
      if out.1.None? then r
      else
        var u := DurableMap.Get(db, id).value;
        var u' := u.(history := Add(u.history, points, c, now));
        DurableMap.AbstractUpdate(db, r, id, u');
        forall k | k in DurableMap.Keys(r) ensures Valid(DurableMap.Get(r, k).value.history) {
          if k != id {
            assert DurableMap.Get(r, k) == DurableMap.Get(db, k);
          }
        }
        r
  }

  // Undo and redo.

  /** One history step of the user, `undo` when `back` and `redo`
      otherwise, through `update_inplace`; `done` is whether the cursor
      moved (false for an unknown id). */
  function Step(db: Db, id: Usize, back: bool): (r: (Db, bool))
    requires ValidDb(db)
    ensures ValidDb(r.0)
    ensures r.1 <==> (id in DurableMap.Keys(db) &&
                      var h := DurableMap.Abstract(db)[id].history;
                      if back then h.cur != -1 else h.cur < |h.chain| - 1)
    ensures id !in DurableMap.Keys(db) ==> r.0 == db
    ensures id in DurableMap.Keys(db) ==>
              var u := DurableMap.Abstract(db)[id];
              var s := if back then Undo(u.history) else Redo(u.history);
              DurableMap.Abstract(r.0) == DurableMap.Abstract(db)[id := u.(history := s.0)]
  {
    var step := (u: UserInfo) requires Valid(u.history) =>
      var s := if back then Undo(u.history) else Redo(u.history);
      (u.(history := s.0), s.1);
    var out := DurableMap.UpdateInplace(db, id, step);
    var r := out.0;
    if out.1.None? then (r, false)
    else
      var u := DurableMap.Get(db, id).value;
      var s := if back then Undo(u.history) else Redo(u.history);
      DurableMap.AbstractUpdate(db, r, id, u.(history := s.0));
      forall k | k in DurableMap.Keys(r) ensures Valid(DurableMap.Get(r, k).value.history) {
        if k != id {
          assert DurableMap.Get(r, k) == DurableMap.Get(db, k);
        }
      }
      (r, out.1.value)
  }

  /** A successful undo followed by a redo gives back the user's record. */
  lemma UndoThenRedoRestores(db: Db, id: Usize)
    requires ValidDb(db) && id in DurableMap.Keys(db)
    requires DurableMap.Abstract(db)[id].history.cur != -1
    ensures Step(db, id, true).1
    ensures var back := Step(db, id, true).0;
            Step(back, id, false).1 &&
            DurableMap.Abstract(Step(back, id, false).0) == DurableMap.Abstract(db)
  {
    var a := DurableMap.Abstract(db);
    assert id in DurableMap.Keys(db);
    var u := a[id];
    assert DurableMap.Get(db, id) == Some(u);
    assert Valid(u.history);
    var back := Step(db, id, true).0;
    assert DurableMap.Abstract(back) == a[id := u.(history := Undo(u.history).0)];
    RedoAfterUndo(back, id, a);
  }

  /** The redo half: a table holding the undone record of user `id` of `a`
      goes back to `a`. */
  lemma RedoAfterUndo(back: Db, id: Usize, a: map<Usize, UserInfo>)
    requires id in a && Valid(a[id].history) && Undo(a[id].history).1
    requires ValidDb(back)
    requires DurableMap.Abstract(back) == a[id := a[id].(history := Undo(a[id].history).0)]
    ensures Step(back, id, false).1
    ensures DurableMap.Abstract(Step(back, id, false).0) == a
  {
    var u := a[id];
    var u' := u.(history := Undo(u.history).0);
    UndoThenRedo(u.history);
    assert id in DurableMap.Keys(back);
    assert DurableMap.Abstract(back)[id] == u';
    assert a[id := u'][id := u] == a;
  }

  // The redraw broadcast.

  /** The users' histories in `foreach` order. */
  function Histories(db: Db): (hs: seq<History>)
    requires ValidDb(db)
    ensures Replay.AllValid(hs)
    ensures |hs| == |DurableMap.Foreach(db)|
    ensures forall i | 0 <= i < |hs| :: hs[i] == DurableMap.Abstract(db)[DurableMap.Foreach(db)[i].0].history
  {
    var ps := DurableMap.Foreach(db);
    var hs := seq(|ps|, i requires 0 <= i < |ps| => ps[i].1.history);
    assert forall i | 0 <= i < |ps| :: ps[i] in ps;
    hs
  }

  /** The list a redraw broadcasts: the timestamp walk of every user's
      strokes, merged in ascending timestamp order. */
  function RedrawList(db: Db): (out: seq<Line>)
    requires ValidDb(db)
    ensures forall i, j | 0 <= i < j < |out| :: out[i].ts < out[j].ts
    ensures forall i | 0 <= i < |out| ::
              exists u :: 0 <= u < |Histories(db)| && out[i] in Replay.KeptOf(Histories(db)[u])
  {
    var hs := Histories(db);
    Replay.ReplaySorted(hs);
    Replay.ReplayOnlyKept(hs);
    Replay.ReplayAll(hs)
  }

  /** The corrected redraw list: every user's strokes in effect, up to the
      cursor, in ascending timestamp order; it never shows an undone
      stroke. */
  function RedrawListInEffect(db: Db): (out: seq<Line>)
    requires ValidDb(db)
    ensures forall i, j | 0 <= i < j < |out| :: out[i].ts < out[j].ts
    ensures forall i | 0 <= i < |out| ::
              exists u :: 0 <= u < |Histories(db)| && out[i] in Replay.InEffect(Histories(db)[u])
  {
    var hs := Histories(db);
    Replay.ReplayInEffectShowsOnlyInEffect(hs);
    Replay.ReplayInEffect(hs)
  }

  /** When every user's strokes carry strictly increasing timestamps after
      the epoch, the broadcast timestamp walk equals the corrected list. */
  lemma RedrawMatchesTimestampWalk(db: Db)
    requires ValidDb(db)
    requires forall id | id in DurableMap.Abstract(db) :: Replay.StrictlyTimed(DurableMap.Abstract(db)[id].history)
    ensures RedrawList(db) == RedrawListInEffect(db)
  {
    var hs := Histories(db);
    var ps := DurableMap.Foreach(db);
    forall u | 0 <= u < |hs| ensures Replay.StrictlyTimed(hs[u]) {
      assert ps[u] in ps;
    }
    Replay.ReplayAgreesWhenTimed(hs);
  }

  /** The commands of the core: `undo`, `redo`, `redraw` and `draw`. */
  datatype Command = UndoCmd | RedoCmd | RedrawCmd | DrawCmd(raw: seq<(I64, I64)>)

  /** One message of user `id`, received at `now`: the new database and
      the redraw list broadcast to every user, if any. */
  function Handle(db: Db, id: Usize, cmd: Command, now: Time): (r: (Db, Option<seq<Line>>))
    requires ValidDb(db)
    ensures ValidDb(r.0)
    ensures r.1.Some? <==>
              cmd.RedrawCmd? || (cmd.UndoCmd? && Step(db, id, true).1) || (cmd.RedoCmd? && Step(db, id, false).1)
    ensures r.1.Some? ==> r.1.value == RedrawList(r.0)
    ensures cmd.RedrawCmd? ==> r.0 == db
    ensures cmd.DrawCmd? ==> r.0 == Draw(db, id, cmd.raw, now) && r.1.None?
    ensures cmd.UndoCmd? || cmd.RedoCmd? ==> r.0 == Step(db, id, cmd.UndoCmd?).0
  {
    match cmd
    case RedrawCmd => (db, Some(RedrawList(db)))
    case DrawCmd(raw) => (Draw(db, id, raw, now), None)
    case _ =>
      var (db', done) := Step(db, id, cmd.UndoCmd?);
      if done then (db', Some(RedrawList(db'))) else (db', None)
  }
}

=== FILE: strokes.dfy ===
/** The undo/redo stroke history of `src/history.rs`.

    The source keeps a forward chain of `Line` nodes (owning `next` links, a
    weak `prev` back link) rooted at `head`, and a weak `current` cursor.
    Reference counting reduces to a sequence plus a cursor: `chain` is the
    list reachable from `head`, and `cur` is the position `current` points at,
    with -1 for the null cursor ("before the first stroke"). A line's back
    link is kept as the position it refers to, -1 for none. */
module Strokes {
  import opened Wrappers

  /** Wall-clock time: an opaque, totally ordered value supplied by the caller. */
  type Time = int

  /** `UNIX_EPOCH`, the timestamp reported when the cursor is null. */
  const Epoch: Time := 0

  type I32 = x: int | -0x8000_0000 <= x < 0x8000_0000

  type Point = (I32, I32)

  /** A stroke: immutable once built. `prev` is the back link. */
  datatype Line = Line(ts: Time, points: seq<Point>, color: bv32, prev: int)

  datatype History = History(chain: seq<Line>, cur: int)

  /** The cursor is null or on a line, and every back link points at the
      line before it (the head's at nothing). */
  ghost predicate Valid(h: History)
  {
    && -1 <= h.cur < |h.chain|
    && forall i | 0 <= i < |h.chain| :: h.chain[i].prev == i - 1
  }

  /** `init`: no strokes and a null cursor. */
  function Init(): (h: History)
    ensures Valid(h)
    ensures Head(h).None?
    ensures LastTimestamp(h) == Epoch
  {
    History([], -1)
  }

  /** `head`: a handle on the first stroke, or the null handle. */
  function Head(h: History): (r: Option<nat>)
    ensures r.Some? <==> |h.chain| > 0
    ensures r.Some? ==> r.value < |h.chain|
  {
    if |h.chain| == 0 then None else Some(0)
  }

  /** `Line::next`: a handle on the stroke after the one at `i`, or the null
      handle at the end of the chain. */
  function Next(h: History, i: nat): (r: Option<nat>)
    requires i < |h.chain|
    ensures r.Some? <==> i < |h.chain| - 1
    ensures r.Some? ==> r.value < |h.chain|
  {
    if i + 1 < |h.chain| then Some(i + 1) else None
  }

  /** The strokes met by following `next` from handle `p` to the end. */
  function Traverse(h: History, p: Option<nat>): seq<Line>
    requires p.Some? ==> p.value < |h.chain|
    decreases if p.Some? then |h.chain| - p.value else 0
  {
    match p
    case None => []
    case Some(i) => [h.chain[i]] + Traverse(h, Next(h, i))
  }

  /** Walking `next` links from `head` meets exactly the chain, in order. */
  lemma TraverseFromHead(h: History)
    ensures Traverse(h, Head(h)) == h.chain
  {
    if |h.chain| > 0 {
      TraverseSuffix(h, 0);
    }
  }

  lemma {:induction false} TraverseSuffix(h: History, i: nat)
    requires i < |h.chain|
    ensures Traverse(h, Some(i)) == h.chain[i..]
    decreases |h.chain| - i
  {
    if i + 1 < |h.chain| {
      TraverseSuffix(h, i + 1);
    }
  }

  /** `last_timestamp`: the timestamp of the cursor's stroke, or the epoch
      when the cursor is null. */
  function LastTimestamp(h: History): (t: Time)
    requires -1 <= h.cur < |h.chain|
    ensures h.cur == -1 ==> t == Epoch
    ensures h.cur >= 0 ==> t == h.chain[h.cur].ts
  {
    if h.cur == -1 then Epoch else h.chain[h.cur].ts
  }

  /** `add`: a new stroke becomes the successor of the cursor's stroke (or
      the new head when the cursor is null), discarding whatever followed;
      the cursor moves onto it. */
  function Add(h: History, points: seq<Point>, color: bv32, now: Time): (r: History)
    requires Valid(h)
    ensures Valid(r)
    ensures |r.chain| == h.cur + 2 && r.cur == |r.chain| - 1
    ensures forall i | 0 <= i <= h.cur :: r.chain[i] == h.chain[i]
    ensures r.chain[r.cur] == Line(now, points, color, h.cur)
    ensures LastTimestamp(r) == now
    ensures h.cur == -1 ==> Head(r) == Some(0) && |r.chain| == 1
  {
    var line := Line(now, points, color, h.cur);
    History(h.chain[..h.cur + 1] + [line], h.cur + 1)
  }

  /** `undo`: step the cursor back along the stroke's back link; false and
      no change when the cursor is null. */
  function Undo(h: History): (r: (History, bool))
    requires Valid(h)
    ensures Valid(r.0) && r.0.chain == h.chain
    ensures r.1 <==> h.cur != -1
    ensures r.1 ==> r.0.cur == h.cur - 1
    ensures !r.1 ==> r.0 == h
  {
    if h.cur == -1 then (h, false)
    else (h.(cur := h.chain[h.cur].prev), true)
  }

  /** `redo`: step the cursor forward, onto the head when it is null; false
      and no change when there is no stroke to step onto. */
  function Redo(h: History): (r: (History, bool))
    requires Valid(h)
    ensures Valid(r.0) && r.0.chain == h.chain
    ensures r.1 <==> h.cur < |h.chain| - 1
    ensures r.1 ==> r.0.cur == h.cur + 1
    ensures !r.1 ==> r.0 == h
  {
    var target := if h.cur == -1 then Head(h) else Next(h, h.cur);
    match target
    case None => (h, false)
    case Some(i) => (h.(cur := i), true)
  }

  /** `clear`: drop the whole chain and null the cursor; report whether
      there was a head to drop. */
  function Clear(h: History): (r: (History, bool))
    ensures Valid(r.0)
    ensures r.1 <==> Head(h).Some?
    ensures Head(r.0).None? && LastTimestamp(r.0) == Epoch
    ensures !Undo(r.0).1 && !Redo(r.0).1
  {
    (Init(), |h.chain| > 0)
  }

  /** An undo that moved is exactly reverted by a redo. */
  lemma UndoThenRedo(h: History)
    requires Valid(h) && Undo(h).1
    ensures Redo(Undo(h).0) == (h, true)
  {
  }

  /** A redo that moved is exactly reverted by an undo. */
  lemma RedoThenUndo(h: History)
    requires Valid(h) && Redo(h).1
    ensures Undo(Redo(h).0) == (h, true)
  {
  }

  /** Drawing after undoing discards the undone strokes: nothing is left to
      redo, and the strokes before the cursor are kept. */
  lemma AddDiscardsRedo(h: History, points: seq<Point>, color: bv32, now: Time)
    requires Valid(h)
    ensures !Redo(Add(h, points, color, now)).1
    ensures Add(h, points, color, now).chain[..h.cur + 1] == h.chain[..h.cur + 1]
  {
  }

  /** Strokes A, B, C added in order, two undos, a redo, then two undos and
      a new stroke D while on A: D becomes A's successor and B, C are gone. */
  lemma ThreeStrokeScenario(p: seq<Point>, c: bv32)
    ensures
      var h3 := Add(Add(Add(Init(), p, c, 1), p, c, 2), p, c, 3);
      var (u1, _) := Undo(h3);
      var (u2, _) := Undo(u1);
      var (r1, _) := Redo(u2);
      var d := Add(u2, p, c, 4);
      && u2.cur == 0 && u2.chain[0].ts == 1
      && r1.cur == 1 && r1.chain[1].ts == 2
      && |d.chain| == 2 && d.chain[0].ts == 1 && d.chain[1].ts == 4 && d.chain[1].prev == 0
  {
  }
}

=== FILE: wrappers.dfy ===
/** The optional value used wherever the source returns `Option<T>` or a
    nullable handle. */
module Wrappers {

  datatype Option<+T> = None | Some(value: T) {

    /** The held value, with `default` standing in for an absent one (the
        seed `update_with_or_insert` applies its closure to). */
    function GetOr(default: T): T
    {
      if Some? then value else default
    }
  }
}
